=== FILE: README.md ===
# GridClash synchronization core in Dafny

A model of the GCP1 ("GridClash Protocol") prototype: a UDP server that owns an 8x8
grid of cell owners, and a headless client that claims cells and follows the
server's periodic snapshots. Three parts are modelled:

- **Wire codec** (`protocol.py`). It covers the fixed 28-byte big-endian header
  `!4sBBIIQHI` (tag "GCP1", version, message type, snapshot id, sequence number,
  millisecond timestamp, payload length, CRC-32 of the payload). It also covers the
  3-byte grid-change entry `!HB`, the 12-byte EVENT payload `!BBHQ` and checksum
  validation. Encoders and decoders are pure functions over `seq<uint8>`. `struct`'s
  range and size errors, and the UTF-8 decode of the tag, are `Failure` results.
- **Server state authority** (`server.py`). A claim follows first-claim-wins: a cell
  is written only while its owner is 0. The sender is registered as a client. The
  snapshot payload is the byte 4 followed by all 64 cells in row-major order. Each
  broadcast advances both counters. The receive loop's dispatch filter is modelled
  one datagram per step.
- **Client bookkeeping** (`automated_client.py`). This is the pending-event table:
  enqueue, retry every 200 ms up to 10 retries and then drop, remove on
  acknowledgement. It also covers the stale-snapshot filter, the cell-difference
  count, the row-major grid update, the join handler and the game-over reset.

Wall-clock time is a parameter (`nowMs`). Every handler is a function from a state
to a state. Sends appear as outputs: the broadcast packet and its recipients, and
the set of event ids sent again by a retry pass. Runs of the server and of the
client are folds of these steps over an input sequence. The server has two runs.
`Server.ExecuteAsWritten` is the program as written: two daemon threads, either of
which an uncaught exception ends while the other carries on. `Server.Execute` is
the corrected server, whose receiving side drops what it cannot handle.

Files: `wrappers.dfy` (Option, Result, the exceptions raised), `bytes.dfy`
(big-endian fields), `utf8.dfy` (well-formed UTF-8), `crc32.dfy` (zlib's CRC-32),
`protocol.dfy`, `board.dfy` (the 8x8 grid, row-major cell numbering), `server.dfy`,
`client.dfy`.

Where the documented GCP1 design (the Mini-RFC that `protocol.py` cites) and the code differ, the model follows the code:

- Claims are first-claim-wins. There is no timestamp-earliest-wins arbitration
  clock.
- There are no player slots, no server-side acknowledgements or retries, and no
  CELL_UPDATE, HEARTBEAT or win detection.
- The EVENT payload is 12 bytes. It carries a player id, an action type, a cell id
  and a timestamp.
- The snapshot is a 193-byte list of (cell id, owner) entries, not 64 raw owner
  bytes.
- The client retries every 200 ms and stops after 10 retries.
- The server never checks a datagram's checksum or its payload-length field.

## Model

| member | source | states |
|---|---|---|
| `BigEndian.FromBEToBE` | protocol.py:44-45 | decoding a big-endian field of any width gives back the value packed into it |
| `BigEndian.ToBEFromBE` | protocol.py:44-45 | re-encoding a decoded field gives back the original bytes, so the field encoding is a bijection |
| `BigEndian.ToBEInjective` | protocol.py:44-45 | two in-range values packed at the same width give equal bytes only when they are equal |
| `Utf8.AsciiWellFormed` | protocol.py:97 | every 7-bit ASCII tag, "GCP1" among them, decodes |
| `Utf8.DecoderTable` | protocol.py:97 | the strict UTF-8 decode rejects overlong forms, surrogates, code points above U+10FFFF, stray continuation bytes and truncated sequences, and accepts two-, three- and four-byte characters |
| `Checksum.Crc32` | protocol.py:66 | the checksum of any payload is an unsigned 32-bit value |
| `Checksum.CheckValue` | protocol.py:66 | the modelled CRC is zlib's: "123456789" gives the standard check value 0xCBF43926 |
| `Protocol.PackHeader` | protocol.py:34-45 | every packed header is exactly HEADER_SIZE = 4+1+1+4+4+8+2+4 = 28 bytes |
| `Protocol.UnpackPackHeader` | protocol.py:68-105 | unpacking a packed header returns every one of its eight fields |
| `Protocol.PackUnpackHeader` | protocol.py:95-105 | every 28-byte string is the packing of the header it unpacks to, so no bytes are lost |
| `Protocol.BuildHeader` | protocol.py:51-79 | building succeeds exactly when the type fits a byte, both ids fit 32 bits, the timestamp fits 64 bits and the payload is at most 65535 bytes; the result is 28 bytes starting with the tag "GCP1"; otherwise a struct error |
| `Protocol.ParseHeader` | protocol.py:82-105 | fewer than 28 bytes always gives IncompleteHeader; from 28 bytes on, parsing succeeds exactly when the tag is well-formed UTF-8, and the parsed header is exactly the first 28 bytes |
| `Protocol.HeaderRoundTrip` | protocol.py:51-105 | parsing a built header, with any payload after it, yields tag GCP1, version 1, the given type, ids and timestamp, the payload's length and its CRC-32 masked to 32 bits |
| `Protocol.ParseHeaderIgnoresTrailer` | protocol.py:92-95 | bytes after the first 28 never change the parse |
| `Protocol.ChecksumOfBuiltHeader` | protocol.py:185-188 | a header built over a payload validates against it, and against another payload exactly when their CRC-32s agree |
| `Protocol.BuildGridChange` | protocol.py:140-142 | an entry is 3 bytes that unpack to the same cell id and owner; ids outside 0..65535 or owners outside 0..255 give a struct error, and no other failure occurs |
| `Protocol.ParseGridChanges` | protocol.py:145-154 | parsing succeeds exactly when the count is not positive or the data holds count entries; it returns count changes, the i-th decoded from bytes 3i to 3i+3; struct error otherwise |
| `Protocol.GridChangesRoundTrip` | protocol.py:140-154 | n concatenated entries parsed with count n give back the same list, whatever bytes follow |
| `Protocol.BuildEventPayload` | protocol.py:161-167 | the EVENT payload is exactly 12 bytes, and building fails, always with a struct error, exactly when a field is out of range |
| `Protocol.ParseEventPayload` | protocol.py:170-178 | parsing succeeds exactly on 12-byte payloads; any other length gives a struct error |
| `Protocol.EventRoundTrip` | protocol.py:161-178 | parsing a built payload returns the same player id, action type, cell id and timestamp |
| `Protocol.EventReencodes` | protocol.py:161-178 | every parseable payload is the build of the event it parses to |
| `Board.SetCell` | server.py:54-59 | writing cell k at row k/8, column k%8 changes that cell and no other |
| `Board.WriteOwners` | automated_client.py:253-257 | after the loop, each cell below the owners' count holds its listed owner and every later cell is unchanged |
| `Board.WriteFlatten` | automated_client.py:253-257 | writing a full row-major listing of a grid yields that grid, whatever was there before |
| `Board.FlattenWrite` | automated_client.py:253-257 | writing 64 owners and reading the grid back row-major gives the same 64 owners |
| `Board.DiffCountIsCardinality` | automated_client.py:228-243 | the counted error is the number of cells where the received owner differs from the last known one |
| `Board.DiffCountZero` | automated_client.py:238-243 | the count is zero exactly when every received owner matches the last known grid |
| `Server.Initial` | server.py:32-35 | the server starts with an empty grid, no clients and both counters at 0 |
| `Server.HandleEvent` | server.py:48-64 | succeeds exactly for a 12-byte payload with a cell id below 64. On success: an unowned cell gets the claimant's id; an owned cell leaves the grid unchanged; no other cell changes; the sender joins the client set; the counters stay put. A wrong payload size is a struct error |
| `Server.ClaimKeepsOwners` | server.py:57-62 | a claim never changes an owned cell, and the only cell that can change is the unowned claimed one |
| `Server.SnapshotPayload` | server.py:70-85 | the snapshot payload is 1 + 64x3 = 193 bytes, starts with 4, and its 64 entries parse back to (k, owner of cell k) for k = 0..63 |
| `Server.SnapshotEntry` | server.py:76-81 | bytes 1+3k to 4+3k are exactly build_grid_change(k, grid[k/8][k%8]) |
| `Server.SnapshotPayloadInjective` | server.py:70-85 | different grids always give different snapshot payloads |
| `Server.BroadcastSnapshot` | server.py:88-98 | fails exactly when a counter or the clock no longer fits its field. On success it sends one packet to every client. The packet's header parses to a SNAPSHOT with the current counters, the time, length 193 and the payload's CRC, followed by the snapshot payload. Both counters go up by one and nothing else changes |
| `Server.ReceiveAsWritten` | server.py:104-119 | a datagram shorter than 28 bytes changes nothing. A tag that is not UTF-8 raises UnicodeDecodeError. A non-EVENT message changes nothing. An EVENT goes to the claim handler with the bytes after the header. Any exception ends the loop |
| `Server.ReceiveAsWrittenDiesOnOutOfGridCell` | server.py:54-58 | every well-formed EVENT claiming a cell id of 64 or more makes the as-written loop raise IndexError |
| `Server.OutOfGridClaimStopsReceiveLoop` | server.py:104-119 | the concrete datagram in which player 1 claims cell 64 stops the as-written loop |
| `Server.ReceiveAsWrittenDiesOnShortEvent` | server.py:48-50 | an EVENT whose payload is not 12 bytes makes the as-written loop raise a struct error |
| `Server.Receive` | server.py:106-119 | with the fix applied: short, undecodable and non-EVENT datagrams change nothing, the counters never change and the client set only grows |
| `Server.ReceiveRefinesAsWritten` | server.py:104-119 | the corrected step equals the code's step wherever the code does not raise, and drops the datagram where it does |
| `Server.BroadcastIdsIncrease` | server.py:88-98 | over any run of the corrected server, broadcast snapshot ids start at the current counter and strictly increase, and both counters end at their start plus the number of broadcasts |
| `Server.RunKeepsOwnersAndClients` | server.py:57-64 | over any run of the corrected server, an owned cell keeps its owner and a registered client stays registered |
| `Server.Start` | server.py:133-139 | the program starts with both threads alive on the given state |
| `Server.StepAsWritten` | server.py:88-126 | a datagram reaches the state only while the receiving thread lives, and an exception ends that thread with the state unchanged. A tick broadcasts only while the snapshot thread lives, and a failed header build ends that thread with nothing sent. Datagrams never touch the counters or the snapshot thread; ticks never touch the grid, the clients or the receiving thread |
| `Server.ExecuteAsWritten` | server.py:104-139 | over the program as written, a thread that has ended never comes back |
| `Server.SnapshotThreadStaysDead` | server.py:122-126 | once the snapshot thread has ended, no snapshot is ever sent again and both counters stay where they were |
| `Server.ReceiverStaysDead` | server.py:104-119 | once the receiving thread has ended, no later datagram is handled: the grid and the client set never change again |
| `Server.BroadcastIdsIncreaseAsWritten` | server.py:88-126 | over any run of the program as written, broadcast ids start at the current counter and strictly increase, and both counters end at their start plus the number of broadcasts |
| `Server.PrependIds` | server.py:91-98 | one broadcast id equal to the counter, followed by larger ids, keeps the list strictly increasing |
| `Server.RunKeepsOwnersAndClientsAsWritten` | server.py:57-126 | over any run of the program as written, whichever thread stops, an owned cell keeps its owner and a registered client stays registered |
| `Server.ExecuteAgreesWhileAlive` | server.py:104-139 | while neither thread of the program as written raises, it goes through the same states and sends the same snapshot ids as the corrected server |
| `Client.Initial` | automated_client.py:49-72 | the client starts with empty grids, no player id, latest snapshot 0, event counter 0 and no pending events |
| `Client.EnqueueEvent` | automated_client.py:117-124 | the event is recorded with retries 0 and last-sent time now; every other entry and field is unchanged |
| `Client.RetryPendingEvents` | automated_client.py:126-140 | an entry sent less than 200 ms ago is untouched. A due entry below 10 retries is sent again, with one more retry and now as its last-sent time. A due entry at 10 or more is removed. Nothing else changes |
| `Client.HandleEventAck` | automated_client.py:281-290 | removes exactly the acknowledged id and nothing else; an unknown id or an undecodable ack changes nothing |
| `Client.AckIdempotent` | automated_client.py:286 | acknowledging an id twice has the same effect as once |
| `Client.UnackedEventIsDropped` | automated_client.py:126-145 | an entry that is never acknowledged is gone after at most 11 - retries retry passes spaced 200 ms apart |
| `Client.UpdateGrid` | automated_client.py:253-257 | owner k lands in cell k for every k below the count; more than 64 owners raise IndexError after the first 64 are written |
| `Client.PositionError` | automated_client.py:220-251 | before a join the result is 0 and nothing changes. Once joined it is the number of cells that differ from last_known_grid, and that grid then takes the received owners. More than 64 owners raise before anything is copied |
| `Client.PositionErrorZero` | automated_client.py:233-243 | a joined client measures 0 exactly when the received owners equal the last known ones |
| `Client.PositionErrorAdoptsGrid` | automated_client.py:245-248 | after a full 64-cell comparison, last_known_grid equals the received grid |
| `Client.HandleSnapshot` | automated_client.py:185-218 | a snapshot whose id is not above the latest is ignored, and the latest id never decreases. An accepted snapshot of at most 64 owners becomes the latest and updates the grid, plus last_known_grid once joined. The pending table, event counter and player id are untouched |
| `Client.FreshClientDiscardsSnapshotZero` | automated_client.py:51-193 | a fresh client discards a snapshot with id 0, which is the id the server puts on its first broadcast, and nothing changes |
| `Client.FullSnapshotSyncsGrids` | automated_client.py:199-203 | a joined client accepting a full snapshot ends with both grids equal to the received one |
| `Client.LatestIsMaxId` | automated_client.py:191-215 | in any arrival order of snapshots with at most 64 owners each, the latest snapshot id is the largest id seen, so a late older snapshot never rolls it back |
| `Client.HandleJoin` | automated_client.py:175-183 | the player id is always taken; with at most 64 owners the grid is updated and last_known_grid becomes a copy of it |
| `Client.JoinThenSameSnapshotMeasuresZero` | automated_client.py:175-251 | right after a join, a snapshot with the same owners measures an error of 0 |
| `Client.HandleGameOver` | automated_client.py:259-273 | a one-byte payload empties the pending table, zeroes the event counter and both grids and clears the player id, keeping the latest snapshot id; any other length changes nothing |
| `Client.UnjoinedUntilJoin` | automated_client.py:175-273 | a client without a player id keeps none through any inputs until a join response arrives |
| `Client.GameOverSilencesPositionError` | automated_client.py:225-273 | after a game over, through any inputs until the next join, a snapshot measures an error of 0 and the measurement changes nothing |
| `Client.RunKeepsInvariants` | automated_client.py:117-140 | over any run of client inputs, no pending entry exceeds 10 retries and the latest snapshot id never decreases |

## Left out

- Sockets, threads and sleeps: `receive_loop`'s polling, the 25 ms sleep of `snapshot_loop`, and the client's `start`, `network_loop`, `retry_loop` and `gameplay_loop`. Each handler is modelled as one atomic step. The server's two threads are modelled only as alive-or-ended flags. Interleavings inside a handler are not modelled. An example is the receive thread adding a client while `broadcast_snapshot` iterates the set.
- `time.time()`: every timestamp is a parameter.
- `recvfrom`'s 2048-byte buffer: a datagram is whatever the socket returned.
- Send failures: a `sendto` that raises in `broadcast_snapshot` is not modelled.
- Checksum.Crc32: zlib is a foreign library. The model implements the same bitwise algorithm and proves only its range and its standard check value. Other properties do not depend on it.
- ParseHeader: the tag is kept as its four raw bytes rather than decoded text. Only whether the decode succeeds is modelled.
- `build_player_state` and `parse_player_states`: they pack IEEE floats.
- The client's imported protocol functions: `build_event_message`, `build_init_message`, `build_snapshot_ack_message`, `parse_join_response_payload`, `parse_snapshot_payload`, `parse_event_ack_payload`, and the constants `MSG_JOIN_RESPONSE`, `MSG_EVENT_ACK`, `GRID_SIZE`, `TOTAL_CELLS`. None of them is defined in `protocol.py`. The decoded results of the parsers are handler inputs, and the message constants matter only to the dispatch left out below.
- Board.Size: the client's imported `GRID_SIZE` is taken to be the server's 8 (server.py:29), and `TOTAL_CELLS` to be 64. The client's grid shape, cell numbering and 64-owner limit in `Client.UpdateGrid`, `Client.PositionError` and `Client.HandleSnapshot` rest on that assumption.
- The client's message dispatch in `network_loop` depends on those missing constants, so it is left out.
- The snapshot acknowledgement, the rejoin INIT after a game over, CSV metrics, latency logging and random cell choice are I/O or randomness.
- Client.PositionError: the count is a natural number, while the source returns the float `error_sum`.
- Event-id allocation (`event_seq` in `gameplay_loop`) is left out with that loop. The model only resets the counter.
- Features described for the system but absent from this code: timestamp arbitration, win detection, slot assignment and rejoin, server-side acknowledgement and retry, CELL_UPDATE and HEARTBEAT.
- `client.py`, the experiment runners, plotting and packet-capture analysis are UI, orchestration and statistics, not the core.

## Findings

| source | as written | input that shows it | evidently intended | confidence | as-written member | corrected member |
|---|---|---|---|---|---|---|
| server.py:104-119 | `receive_loop` catches only `BlockingIOError`. The EVENT handler raises when the payload is not 12 bytes (struct error) or the cell id is 64 or more (IndexError, row past the grid). `parse_header` also raises when the 4-byte tag is not valid UTF-8. Any of these exceptions ends the receiving thread, and the server never handles another datagram | a 40-byte EVENT datagram whose payload claims cell 64 for player 1 | drop the malformed datagram and keep listening, as the loop already does for datagrams shorter than the header | medium; not executed | `Server.ReceiveAsWritten` (`Server.OutOfGridClaimStopsReceiveLoop`, `Server.ReceiverStaysDead`) | `Server.Receive` (`Server.ReceiveRefinesAsWritten`) |

=== FILE: board.dfy ===
/** The 8x8 ownership grid shared by the server and the client: owner 0 means
    unclaimed. Cells are numbered row-major, cell k sitting at row k / 8, column k % 8. */
module Board {
  import opened BigEndian

  const Size := 8
  const Cells := Size * Size

  predicate IsGrid(g: seq<seq<uint8>>) {
    |g| == Size && forall r :: 0 <= r < |g| ==> |g[r]| == Size
  }

  type Grid = g: seq<seq<uint8>> | IsGrid(g) witness seq(8, _ => seq(8, _ => 0))

  /** The owner of cell k. */
  function Cell(g: Grid, k: int): uint8
    requires 0 <= k < Cells
  {
    g[k / Size][k % Size]
  }

  /** Two grids with the same owner in every cell are the same grid. */
  lemma {:induction false} GridExtensional(a: Grid, b: Grid)
    requires forall k :: 0 <= k < Cells ==> Cell(a, k) == Cell(b, k)
    ensures a == b
  {
    forall r | 0 <= r < Size
      ensures a[r] == b[r]
    {
      forall c | 0 <= c < Size
        ensures a[r][c] == b[r][c]
      {
        var k := r * Size + c;
        assert k / Size == r && k % Size == c;
        assert Cell(a, k) == Cell(b, k);
      }
    }
  }

  /** The grid a fresh server or a reset client starts from: every cell unclaimed. */
  function Empty(): (g: Grid)
    ensures forall k :: 0 <= k < Cells ==> Cell(g, k) == 0
  {
    seq(Size, _ => seq(Size, _ => 0))
  }

  /** `grid[k // 8][k % 8] = v`: cell k becomes v and no other cell changes. */
  function SetCell(g: Grid, k: int, v: uint8): (r: Grid)
    requires 0 <= k < Cells
    ensures forall j :: 0 <= j < Cells ==> Cell(r, j) == if j == k then v else Cell(g, j)
  {
    var row := k / Size;
    var col := k % Size;
    var r := g[row := g[row][col := v]];
    assert forall j :: 0 <= j < Cells && j != k ==> j / Size != row || j % Size != col;
    r
  }

  /** The owners in row-major order. */
  function Flatten(g: Grid): (s: seq<uint8>)
    ensures |s| == Cells
    ensures forall k :: 0 <= k < Cells ==> s[k] == Cell(g, k)
  {
    seq(Cells, k requires 0 <= k < Cells => Cell(g, k))
  }

  /** The loop of `update_grid`: the k-th owner goes to cell k, one after the other,
      for as many owners as are given (at most one per cell). */
  function WriteOwners(g: Grid, owners: seq<uint8>): (r: Grid)
    requires |owners| <= Cells
    ensures forall k :: 0 <= k < Cells ==> Cell(r, k) == if k < |owners| then owners[k] else Cell(g, k)
    decreases |owners|
  {
    if |owners| == 0 then g
    else
      var last := |owners| - 1;
      SetCell(WriteOwners(g, owners[..last]), last, owners[last])
  }

  /** Writing a full row-major listing of owners yields the grid it lists,
      whatever the grid held before. */
  lemma WriteFlatten(g: Grid, h: Grid)
    ensures WriteOwners(g, Flatten(h)) == h
  {
    GridExtensional(WriteOwners(g, Flatten(h)), h);
  }

  /** The other direction: writing 64 owners and reading the grid back row-major
      gives the same 64 owners, so a snapshot's owners survive the grid copy. */
  lemma FlattenWrite(g: Grid, owners: seq<uint8>)
    requires |owners| == Cells
    ensures Flatten(WriteOwners(g, owners)) == owners
  {
  }

  /** The number of the first |owners| cells whose owner differs from the listed one. */
  function DiffCount(g: Grid, owners: seq<uint8>): (n: nat)
    requires |owners| <= Cells
    ensures n <= |owners|
    decreases |owners|
  {
    if |owners| == 0 then 0
    else
      var last := |owners| - 1;
      DiffCount(g, owners[..last]) + (if owners[last] != Cell(g, last) then 1 else 0)
  }

  /** The cells where the listing and the grid disagree. */
  function DiffCells(g: Grid, owners: seq<uint8>): set<int>
    requires |owners| <= Cells
  {
    set k | 0 <= k < |owners| && owners[k] != Cell(g, k)
  }

  /** DiffCount counts exactly the disagreeing cells. */
  lemma {:induction false} DiffCountIsCardinality(g: Grid, owners: seq<uint8>)
    requires |owners| <= Cells
    ensures DiffCount(g, owners) == |DiffCells(g, owners)|
  {
    if |owners| > 0 {
      var last := |owners| - 1;
      var prefix := owners[..last];
      DiffCountIsCardinality(g, prefix);
      if owners[last] != Cell(g, last) {
        assert DiffCells(g, owners) == DiffCells(g, prefix) + {last};
      } else {
        assert DiffCells(g, owners) == DiffCells(g, prefix);
      }
    } else {
      assert DiffCells(g, owners) == {};
    }
  }

  /** The count is zero exactly when every listed owner matches the grid. */
  lemma DiffCountZero(g: Grid, owners: seq<uint8>)
    requires |owners| <= Cells
    ensures DiffCount(g, owners) == 0 <==> forall k :: 0 <= k < |owners| ==> owners[k] == Cell(g, k)
  {
    DiffCountIsCardinality(g, owners);
    if DiffCount(g, owners) != 0 {
      var k :| k in DiffCells(g, owners);
    }
  }
}

=== FILE: bytes.dfy ===
/** Unsigned big-endian ("network order") integer fields, as `struct` packs the
    `B`, `H`, `I` and `Q` codes under the `!` prefix: no padding, most significant
    byte first, and a value outside `0 .. 256^width - 1` is refused. */
module BigEndian {

  newtype uint8 = x: int | 0 <= x < 256

  type Bytes = seq<uint8>

  function Pow256(n: nat): (r: nat)
    ensures r >= 1
  {
    if n == 0 then 1 else 256 * Pow256(n - 1)
  }

  /** True when `n` can be packed as an unsigned field of `width` bytes. */
  predicate Fits(n: int, width: nat) {
    0 <= n < Pow256(width)
  }

  /** The `width`-byte big-endian encoding of `n`. */
  function ToBE(n: nat, width: nat): (r: Bytes)
    requires n < Pow256(width)
    ensures |r| == width
  {
    if width == 0 then []
    else
      ToBE(n / 256, width - 1) + [(n % 256) as uint8]
  }

  /** The unsigned integer a big-endian byte string denotes. */
  function FromBE(s: Bytes): (n: nat)
    ensures n < Pow256(|s|)
  {
    if |s| == 0 then 0
    else
      var high := FromBE(s[..|s| - 1]);
      assert high <= Pow256(|s| - 1) - 1;
      assert high * 256 <= Pow256(|s|) - 256;
      high * 256 + s[|s| - 1] as nat
  }

  /** Decoding an encoded field gives back the packed value. */
  lemma {:induction false} FromBEToBE(n: nat, width: nat)
    requires n < Pow256(width)
    ensures FromBE(ToBE(n, width)) == n
  {
    if width > 0 {
      var s := ToBE(n, width);
      assert s[..|s| - 1] == ToBE(n / 256, width - 1);
      FromBEToBE(n / 256, width - 1);
    }
  }

  /** Encoding a decoded field gives back the original bytes. */
  lemma {:induction false} ToBEFromBE(s: Bytes)
    ensures ToBE(FromBE(s), |s|) == s
  {
    if |s| > 0 {
      var p := s[..|s| - 1];
      var n := FromBE(s);
      assert n == FromBE(p) * 256 + s[|s| - 1] as nat;
      assert n / 256 == FromBE(p);
      assert n % 256 == s[|s| - 1] as nat;
      ToBEFromBE(p);
      assert s == p + [s[|s| - 1]];
    }
  }

  /** Two fields of the same width encode equal bytes only for equal values. */
  lemma ToBEInjective(m: nat, n: nat, width: nat)
    requires m < Pow256(width) && n < Pow256(width)
    requires ToBE(m, width) == ToBE(n, width)
    ensures m == n
  {
    FromBEToBE(m, width);
    FromBEToBE(n, width);
  }
}

=== FILE: client.dfy ===
/** The headless client's bookkeeping (`automated_client.py`): the table of EVENTs
    waiting for an acknowledgement with its retry policy, the stale-snapshot filter,
    the cell-difference count, the row-major grid update and the game-over reset.
    Each handler is one step from a state to a state. The decoded outputs of the
    parsers the client imports (join response, snapshot, event ack) are inputs
    here: `None` stands for a parser that raised, which the handler's own
    try/except swallows. */
module Client {
  import opened BigEndian
  import opened Wrappers
  import opened Board

  /** `int(self.retry_interval * 1000)` with retry_interval = 0.2 s. */
  const RetryIntervalMs := 200
  const MaxEventRetries := 10

  /** One entry of `pending_events`. */
  datatype PendingEvent = PendingEvent(msg: Bytes, lastSentMs: int, retries: nat)

  datatype ClientState = ClientState(
    grid: Grid,
    lastKnownGrid: Grid,
    myPlayerId: Option<int>,
    latestSnapshotId: int,
    eventSeq: nat,
    pending: map<int, PendingEvent>)

  /** The state `__init__` sets up. */
  function Initial(): (s: ClientState)
    ensures s.grid == Empty() && s.lastKnownGrid == Empty() && s.myPlayerId == None
    ensures s.latestSnapshotId == 0 && s.eventSeq == 0 && s.pending == map[]
  {
    ClientState(Empty(), Empty(), None, 0, 0, map[])
  }

  // ---------------------------------------------------------------- retry table

  /** enqueue_event at wall-clock time `nowMs`: records `msg` under `eventId` as
      sent now with no retries (replacing any entry under that id); the message
      itself goes out once. */
  function EnqueueEvent(s: ClientState, eventId: int, msg: Bytes, nowMs: int): (r: ClientState)
    ensures eventId in r.pending && r.pending[eventId] == PendingEvent(msg, nowMs, 0)
    ensures r.pending.Keys == s.pending.Keys + {eventId}
    ensures forall id :: id in s.pending && id != eventId ==> r.pending[id] == s.pending[id]
    ensures r.(pending := s.pending) == s
  {
    s.(pending := s.pending[eventId := PendingEvent(msg, nowMs, 0)])
  }

  /** An entry is due once a full retry interval has passed since it was last sent. */
  predicate Due(e: PendingEvent, nowMs: int) {
    nowMs - e.lastSentMs >= RetryIntervalMs
  }

  predicate Exhausted(e: PendingEvent) {
    e.retries >= MaxEventRetries
  }

  /** A retry pass: the state after it and the ids whose message went out again. */
  datatype RetryPass = RetryPass(next: ClientState, resent: set<int>)

  /** retry_pending_events at wall-clock time `nowMs`: an entry that is not due is
      left alone; a due entry that has used up its retries is dropped silently;
      any other due entry is sent again, with one more retry and `nowMs` as its
      last send time. */
  function RetryPendingEvents(s: ClientState, nowMs: int): (r: RetryPass)
    ensures forall id :: id in r.next.pending <==>
      id in s.pending && !(Due(s.pending[id], nowMs) && Exhausted(s.pending[id]))
    ensures forall id :: id in s.pending && !Due(s.pending[id], nowMs) ==>
      r.next.pending[id] == s.pending[id]
    ensures forall id :: id in s.pending && Due(s.pending[id], nowMs) && !Exhausted(s.pending[id]) ==>
      && r.next.pending[id].msg == s.pending[id].msg
      && r.next.pending[id].retries == s.pending[id].retries + 1
      && r.next.pending[id].lastSentMs == nowMs
    ensures forall id :: id in r.resent <==>
      id in s.pending && Due(s.pending[id], nowMs) && !Exhausted(s.pending[id])
    ensures r.next.(pending := s.pending) == s
  {
    var kept := map id | id in s.pending && !(Due(s.pending[id], nowMs) && Exhausted(s.pending[id]))
      :: if Due(s.pending[id], nowMs)
         then s.pending[id].(retries := s.pending[id].retries + 1, lastSentMs := nowMs)
         else s.pending[id];
    var resent := set id | id in s.pending && Due(s.pending[id], nowMs) && !Exhausted(s.pending[id]);
    RetryPass(s.(pending := kept), resent)
  }

  /** handle_event_ack: removes the acknowledged id; an unknown or already removed
      id, or an acknowledgement that does not decode, changes nothing. */
  function HandleEventAck(s: ClientState, ackedId: Option<int>): (r: ClientState)
    ensures ackedId.None? ==> r == s
    ensures ackedId.Some? ==> r.pending.Keys == s.pending.Keys - {ackedId.value}
    ensures forall id :: id in r.pending ==> r.pending[id] == s.pending[id]
    ensures ackedId.Some? && ackedId.value !in s.pending ==> r == s
    ensures r.(pending := s.pending) == s
  {
    match ackedId
    case None => s
    case Some(id) => s.(pending := s.pending - {id})
  }

  /** Acknowledging the same id twice is the same as acknowledging it once. */
  lemma AckIdempotent(s: ClientState, id: int)
    ensures HandleEventAck(HandleEventAck(s, Some(id)), Some(id)) == HandleEventAck(s, Some(id))
  {
  }

  /** No entry ever holds more than the retry ceiling. */
  predicate RetriesBounded(s: ClientState) {
    forall id :: id in s.pending ==> s.pending[id].retries <= MaxEventRetries
  }

  /** Repeated retry passes at the given times, with no acknowledgement in between. */
  function RetryRounds(s: ClientState, times: seq<int>): ClientState
    decreases |times|
  {
    if |times| == 0 then s else RetryRounds(RetryPendingEvents(s, times[0]).next, times[1..])
  }

  /** Each pass comes a full retry interval after the previous one, the first a
      full interval after `start`. */
  predicate Spaced(start: int, times: seq<int>)
    decreases |times|
  {
    |times| == 0 || (times[0] - start >= RetryIntervalMs && Spaced(times[0], times[1..]))
  }

  /** A retry pass never adds an entry. */
  lemma {:induction false} RoundsNeverAdd(s: ClientState, times: seq<int>, id: int)
    requires id !in s.pending
    ensures id !in RetryRounds(s, times).pending
    decreases |times|
  {
    if |times| > 0 {
      RoundsNeverAdd(RetryPendingEvents(s, times[0]).next, times[1..], id);
    }
  }

  /** Reliability termination: an event that is never acknowledged is sent again
      on each due pass until its retries reach the ceiling, and the pass after
      that drops it. With passes at least a retry interval apart, it is gone after
      MaxEventRetries - retries + 1 of them. */
  lemma {:induction false} UnackedEventIsDropped(s: ClientState, id: int, times: seq<int>)
    requires id in s.pending && s.pending[id].retries <= MaxEventRetries
    requires Spaced(s.pending[id].lastSentMs, times)
    requires |times| > MaxEventRetries - s.pending[id].retries
    ensures id !in RetryRounds(s, times).pending
    decreases |times|
  {
    var next := RetryPendingEvents(s, times[0]).next;
    assert Due(s.pending[id], times[0]);
    if id in next.pending {
      assert next.pending[id].retries == s.pending[id].retries + 1;
      assert next.pending[id].lastSentMs == times[0];
      UnackedEventIsDropped(next, id, times[1..]);
    } else {
      RoundsNeverAdd(next, times[1..], id);
    }
  }

  // ---------------------------------------------------------------- grid updates

  /** update_grid's outcome: the grid after the loop, and whether it raised. */
  datatype GridWrite = GridWrite(grid: Grid, raised: bool)

  /** update_grid: owner k goes to row k // 8, column k % 8. A 65th owner indexes
      a ninth row and raises IndexError, after the first 64 have been written. */
  function UpdateGrid(g: Grid, owners: seq<uint8>): (r: GridWrite)
    ensures r.raised <==> |owners| > Cells
    ensures forall k :: 0 <= k < Cells ==>
      Cell(r.grid, k) == if k < |owners| then owners[k] else Cell(g, k)
  {
    if |owners| <= Cells then GridWrite(WriteOwners(g, owners), false)
    else GridWrite(WriteOwners(g, owners[..Cells]), true)
  }

  /** calculate_position_error's result and the state it leaves. */
  datatype Measurement = Measurement(error: nat, next: ClientState)

  /** calculate_position_error: before a join it is 0 and nothing changes.
      Otherwise it counts the received owners that differ from `last_known_grid`
      and then copies them into it; more than 64 owners raise IndexError during
      the count, before anything is copied. */
  function PositionError(s: ClientState, owners: seq<uint8>): (r: Result<Measurement>)
    ensures s.myPlayerId.None? ==> r == Success(Measurement(0, s))
    ensures s.myPlayerId.Some? ==> (r.Success? <==> |owners| <= Cells)
    ensures r.Failure? ==> r.fault == IndexError
    ensures s.myPlayerId.Some? && r.Success? ==>
      && r.value.error == |DiffCells(s.lastKnownGrid, owners)|
      && r.value.next == s.(lastKnownGrid := r.value.next.lastKnownGrid)
      && forall k :: 0 <= k < Cells ==>
           Cell(r.value.next.lastKnownGrid, k) == if k < |owners| then owners[k] else Cell(s.lastKnownGrid, k)
  {
    if s.myPlayerId.None? then Success(Measurement(0, s))
    else if |owners| > Cells then Failure(IndexError)
    else
      DiffCountIsCardinality(s.lastKnownGrid, owners);
      Success(Measurement(DiffCount(s.lastKnownGrid, owners), s.(lastKnownGrid := WriteOwners(s.lastKnownGrid, owners))))
  }

  /** The error is zero exactly when the received owners match what was last known. */
  lemma PositionErrorZero(s: ClientState, owners: seq<uint8>)
    requires s.myPlayerId.Some? && |owners| <= Cells
    ensures PositionError(s, owners).value.error == 0 <==>
      forall k :: 0 <= k < |owners| ==> owners[k] == Cell(s.lastKnownGrid, k)
  {
    DiffCountZero(s.lastKnownGrid, owners);
  }

  /** After a full 64-cell comparison, last_known_grid is the received grid. */
  lemma PositionErrorAdoptsGrid(s: ClientState, owners: seq<uint8>)
    requires s.myPlayerId.Some? && |owners| == Cells
    ensures Flatten(PositionError(s, owners).value.next.lastKnownGrid) == owners
  {
    FlattenWrite(s.lastKnownGrid, owners);
  }

  // ---------------------------------------------------------------- handlers

  /** handle_snapshot for snapshot `snapshotId` whose payload decoded to `decoded`:
      a snapshot whose id is not above the latest one accepted is discarded;
      otherwise the position error is taken, the grid updated, and the id becomes
      the latest. An exception on the way is swallowed and leaves whatever was
      already written, without advancing the latest id. */
  function HandleSnapshot(s: ClientState, snapshotId: int, decoded: Option<seq<uint8>>): (r: ClientState)
    ensures r.latestSnapshotId >= s.latestSnapshotId
    ensures decoded.None? || snapshotId <= s.latestSnapshotId ==> r == s
    ensures r.latestSnapshotId != s.latestSnapshotId ==> r.latestSnapshotId == snapshotId
    ensures r.pending == s.pending && r.eventSeq == s.eventSeq && r.myPlayerId == s.myPlayerId
    ensures decoded.Some? && snapshotId > s.latestSnapshotId && |decoded.value| <= Cells ==>
      && r.latestSnapshotId == snapshotId
      && r.grid == WriteOwners(s.grid, decoded.value)
      && r.lastKnownGrid == (if s.myPlayerId.Some? then WriteOwners(s.lastKnownGrid, decoded.value) else s.lastKnownGrid)
    ensures decoded.Some? && snapshotId > s.latestSnapshotId && |decoded.value| > Cells ==>
      && r.latestSnapshotId == s.latestSnapshotId
      && r.lastKnownGrid == s.lastKnownGrid
      && r.grid == (if s.myPlayerId.Some? then s.grid else WriteOwners(s.grid, decoded.value[..Cells]))
  {
    match decoded
    case None => s
    case Some(owners) =>
      if snapshotId <= s.latestSnapshotId then s
      else
        match PositionError(s, owners)
        case Failure(_) => s
        case Success(m) =>
          var w := UpdateGrid(m.next.grid, owners);
          if w.raised then m.next.(grid := w.grid)
          else m.next.(grid := w.grid, latestSnapshotId := snapshotId)
  }

  /** A joined client that accepts a full snapshot ends with both grids equal to
      the received one. */
  lemma FullSnapshotSyncsGrids(s: ClientState, snapshotId: int, owners: seq<uint8>)
    requires s.myPlayerId.Some? && snapshotId > s.latestSnapshotId && |owners| == Cells
    ensures var r := HandleSnapshot(s, snapshotId, Some(owners));
      Flatten(r.grid) == owners && Flatten(r.lastKnownGrid) == owners
  {
    FlattenWrite(s.grid, owners);
    FlattenWrite(s.lastKnownGrid, owners);
  }

  /** The server stamps its first snapshot with id 0, and a fresh client's latest
      id is already 0, so the stale filter discards that first snapshot unseen. */
  lemma FreshClientDiscardsSnapshotZero(decoded: Option<seq<uint8>>)
    ensures HandleSnapshot(Initial(), 0, decoded) == Initial()
  {
  }

  /** A snapshot and the id it arrived under. */
  datatype Snapshot = Snapshot(id: int, owners: seq<uint8>)

  function HandleSnapshots(s: ClientState, snaps: seq<Snapshot>): ClientState
    decreases |snaps|
  {
    if |snaps| == 0 then s else HandleSnapshots(HandleSnapshot(s, snaps[0].id, Some(snaps[0].owners)), snaps[1..])
  }

  function MaxId(start: int, snaps: seq<Snapshot>): int
    decreases |snaps|
  {
    if |snaps| == 0 then start
    else MaxId(if snaps[0].id > start then snaps[0].id else start, snaps[1..])
  }

  /** Whatever order snapshots arrive in, the latest id afterwards is the largest
      id seen (or the previous latest, if larger): a reordered older snapshot
      never rolls it back. */
  lemma {:induction false} LatestIsMaxId(s: ClientState, snaps: seq<Snapshot>)
    requires forall i :: 0 <= i < |snaps| ==> |snaps[i].owners| <= Cells
    ensures HandleSnapshots(s, snaps).latestSnapshotId == MaxId(s.latestSnapshotId, snaps)
    decreases |snaps|
  {
    if |snaps| > 0 {
      LatestIsMaxId(HandleSnapshot(s, snaps[0].id, Some(snaps[0].owners)), snaps[1..]);
    }
  }

  /** handle_join with the decoded (player id, owners) of a join response: the
      player id is taken first, then the grid is updated, and `last_known_grid`
      becomes a copy of it unless the update raised. */
  function HandleJoin(s: ClientState, decoded: Option<(int, seq<uint8>)>): (r: ClientState)
    ensures decoded.None? ==> r == s
    ensures decoded.Some? ==> r.myPlayerId == Some(decoded.value.0)
    ensures decoded.Some? && |decoded.value.1| <= Cells ==>
      r.grid == WriteOwners(s.grid, decoded.value.1) && r.lastKnownGrid == r.grid
    ensures decoded.Some? && |decoded.value.1| > Cells ==>
      r.grid == WriteOwners(s.grid, decoded.value.1[..Cells]) && r.lastKnownGrid == s.lastKnownGrid
    ensures r.pending == s.pending && r.latestSnapshotId == s.latestSnapshotId && r.eventSeq == s.eventSeq
  {
    match decoded
    case None => s
    case Some((playerId, owners)) =>
      var joined := s.(myPlayerId := Some(playerId));
      var w := UpdateGrid(joined.grid, owners);
      if w.raised then joined.(grid := w.grid)
      else joined.(grid := w.grid, lastKnownGrid := w.grid)
  }

  /** Right after a successful join, a snapshot repeating the join's owners
      measures no error: the join leaves the client in step with the server. */
  lemma JoinThenSameSnapshotMeasuresZero(s: ClientState, playerId: int, owners: seq<uint8>)
    requires |owners| <= Cells
    ensures PositionError(HandleJoin(s, Some((playerId, owners))), owners).value.error == 0
  {
    var r := HandleJoin(s, Some((playerId, owners)));
    DiffCountZero(r.lastKnownGrid, owners);
  }

  /** handle_game_over: `struct.unpack("!B")` needs a one-byte payload, and any
      other length raises before anything changes. With one byte, every pending
      event is forgotten, the event counter restarts, both grids are cleared and
      the player id is dropped so that the client can join again. The latest
      snapshot id is kept. */
  function HandleGameOver(s: ClientState, payload: Bytes): (r: ClientState)
    ensures |payload| != 1 ==> r == s
    ensures |payload| == 1 ==>
      && r.pending == map[] && r.eventSeq == 0 && r.myPlayerId.None?
      && (forall k :: 0 <= k < Cells ==> Cell(r.grid, k) == 0 && Cell(r.lastKnownGrid, k) == 0)
      && r.latestSnapshotId == s.latestSnapshotId
  {
    if |payload| != 1 then s
    else s.(pending := map[], eventSeq := 0, grid := Empty(), lastKnownGrid := Empty(), myPlayerId := None)
  }

  // ---------------------------------------------------------------- runs

  /** One thing that can happen to the client. */
  datatype Input =
    | Enqueue(eventId: int, msg: Bytes, nowMs: int)
    | RetryTick(nowMs: int)
    | EventAck(ackedId: Option<int>)
    | SnapshotIn(snapshotId: int, decodedOwners: Option<seq<uint8>>)
    | JoinIn(decodedJoin: Option<(int, seq<uint8>)>)
    | GameOverIn(payload: Bytes)

  function Step(s: ClientState, input: Input): ClientState {
    match input
    case Enqueue(eventId, msg, nowMs) => EnqueueEvent(s, eventId, msg, nowMs)
    case RetryTick(nowMs) => RetryPendingEvents(s, nowMs).next
    case EventAck(ackedId) => HandleEventAck(s, ackedId)
    case SnapshotIn(snapshotId, decoded) => HandleSnapshot(s, snapshotId, decoded)
    case JoinIn(decoded) => HandleJoin(s, decoded)
    case GameOverIn(payload) => HandleGameOver(s, payload)
  }

  function Execute(s: ClientState, inputs: seq<Input>): ClientState
    decreases |inputs|
  {
    if |inputs| == 0 then s else Execute(Step(s, inputs[0]), inputs[1..])
  }

  /** Over any run, no pending entry exceeds the retry ceiling, and the latest
      accepted snapshot id never goes down. */
  lemma {:induction false} RunKeepsInvariants(s: ClientState, inputs: seq<Input>)
    requires RetriesBounded(s)
    ensures RetriesBounded(Execute(s, inputs))
    ensures Execute(s, inputs).latestSnapshotId >= s.latestSnapshotId
    decreases |inputs|
  {
    if |inputs| > 0 {
      var next := Step(s, inputs[0]);
      assert RetriesBounded(next);
      RunKeepsInvariants(next, inputs[1..]);
    }
  }

  /** A client with no player id keeps none until a join response arrives. */
  lemma {:induction false} UnjoinedUntilJoin(s: ClientState, inputs: seq<Input>)
    requires s.myPlayerId.None?
    requires forall i :: 0 <= i < |inputs| ==> !inputs[i].JoinIn?
    ensures Execute(s, inputs).myPlayerId.None?
    decreases |inputs|
  {
    if |inputs| > 0 {
      UnjoinedUntilJoin(Step(s, inputs[0]), inputs[1..]);
    }
  }

  /** After a game over, whatever happens until the next join, a snapshot
      measures no error and the measurement changes nothing. */
  lemma GameOverSilencesPositionError(s: ClientState, winner: uint8, inputs: seq<Input>, owners: seq<uint8>)
    requires forall i :: 0 <= i < |inputs| ==> !inputs[i].JoinIn?
    ensures var c := Execute(HandleGameOver(s, [winner]), inputs);
      PositionError(c, owners) == Success(Measurement(0, c))
  {
    UnjoinedUntilJoin(HandleGameOver(s, [winner]), inputs);
  }
}

=== FILE: crc32.dfy ===
/** The CRC-32 that zlib's `crc32` computes: the ISO-HDLC / ITU-T V.42 code with
    the reflected polynomial 0xEDB88320, initial register 0xFFFFFFFF and final
    complement, processing each byte least significant bit first. */
module Checksum {
  import opened BigEndian

  const Polynomial: bv32 := 0xEDB8_8320

  /** One bit of the shift register. */
  function ShiftBit(c: bv32): bv32 {
    if c & 1 == 1 then (c >> 1) ^ Polynomial else c >> 1
  }

  function ShiftBits(c: bv32, k: nat): bv32
    decreases k
  {
    if k == 0 then c else ShiftBits(ShiftBit(c), k - 1)
  }

  /** Feeds one byte into the register. */
  function Feed(c: bv32, b: uint8): bv32 {
    ShiftBits(c ^ (b as bv32), 8)
  }

  /** The register after feeding `data` in order. */
  function Register(c: bv32, data: Bytes): bv32
    decreases |data|
  {
    if |data| == 0 then c else Register(Feed(c, data[0]), data[1..])
  }

  /** zlib.crc32(data): always an unsigned 32-bit value. */
  function Crc32(data: Bytes): (r: nat)
    ensures r < 0x1_0000_0000
  {
    (Register(0xFFFF_FFFF, data) ^ 0xFFFF_FFFF) as nat
  }

  /** The nine ASCII digits "123456789" and the register after each prefix of them. */
  const CheckInput: Bytes := [0x31, 0x32, 0x33, 0x34, 0x35, 0x36, 0x37, 0x38, 0x39]
  const CheckRegisters: seq<bv32> := [0xFFFF_FFFF, 0x7C23_1048, 0xB0AC_BB32, 0x77B7_9C2D, 0x641C_1F5C, 0x340A_C5E3, 0xF68D_2C9E, 0xAFFC_9660, 0x651F_2550, 0x340B_C6D9]

  /** One byte of "123456789" at a time: feeding byte j to the register after
      the first j bytes gives the register after the first j + 1. */
  lemma CheckStep(j: nat)
    requires j < 9
    ensures Feed(CheckRegisters[j], CheckInput[j]) == CheckRegisters[j + 1]
  {
    if j == 0 {
      CheckStep0();
      assert CheckInput[0] == 0x31;
    } else if j == 1 {
      CheckStep1();
      assert CheckInput[1] == 0x32;
    } else if j == 2 {
      CheckStep2();
      assert CheckInput[2] == 0x33;
    } else if j == 3 {
      CheckStep3();
      assert CheckInput[3] == 0x34;
    } else if j == 4 {
      CheckStep4();
      assert CheckInput[4] == 0x35;
    } else if j == 5 {
      CheckStep5();
      assert CheckInput[5] == 0x36;
    } else if j == 6 {
      CheckStep6();
      assert CheckInput[6] == 0x37;
    } else if j == 7 {
      CheckStep7();
      assert CheckInput[7] == 0x38;
    } else {
      CheckStep8();
      assert CheckInput[8] == 0x39;
    }
  }

  /** Eight single-bit shifts in a row, given the register after each of them. */
  lemma {:induction false} ShiftChain(cs: seq<bv32>, i: nat)
    requires |cs| == 9 && i <= 8
    requires forall k :: i <= k < 8 ==> ShiftBit(cs[k]) == cs[k + 1]
    ensures ShiftBits(cs[i], 8 - i) == cs[8]
    decreases 8 - i
  {
    if i < 8 {
      ShiftChain(cs, i + 1);
    }
  }

  /** Feeding one byte, given the register after each of its eight bits. */
  lemma FeedChain(c: bv32, b: uint8, cs: seq<bv32>)
    requires |cs| == 9 && cs[0] == c ^ (b as bv32)
    requires forall k :: 0 <= k < 8 ==> ShiftBit(cs[k]) == cs[k + 1]
    ensures Feed(c, b) == cs[8]
  {
    ShiftChain(cs, 0);
  }

  // The nine steps, each checked bit by bit.
  lemma CheckStep0()
    ensures Feed(0xFFFF_FFFF, 0x31) == 0x7C23_1048
  {
    var cs: seq<bv32> := [0xFFFF_FFCE, 0x7FFF_FFE7, 0xD247_7CD3, 0x849B_3D49, 0xAFF5_1D84,
                          0x57FA_8EC2, 0x2BFD_4761, 0xF846_2090, 0x7C23_1048];
    assert (0x31 as uint8) as bv32 == 0x31;
    assert cs[0] == 0xFFFF_FFFF ^ 0x31;
    forall k | 0 <= k < 8
      ensures ShiftBit(cs[k]) == cs[k + 1]
    {
      if k == 0 {
        assert ShiftBit(0xFFFF_FFCE) == 0x7FFF_FFE7;
      } else if k == 1 {
        assert ShiftBit(0x7FFF_FFE7) == 0xD247_7CD3;
      } else if k == 2 {
        assert ShiftBit(0xD247_7CD3) == 0x849B_3D49;
      } else if k == 3 {
        assert ShiftBit(0x849B_3D49) == 0xAFF5_1D84;
      } else if k == 4 {
        assert ShiftBit(0xAFF5_1D84) == 0x57FA_8EC2;
      } else if k == 5 {
        assert ShiftBit(0x57FA_8EC2) == 0x2BFD_4761;
      } else if k == 6 {
        assert ShiftBit(0x2BFD_4761) == 0xF846_2090;
      } else {
        assert ShiftBit(0xF846_2090) == 0x7C23_1048;
      }
    }
    FeedChain(0xFFFF_FFFF, 0x31, cs);
  }

  lemma CheckStep1()
    ensures Feed(0x7C23_1048, 0x32) == 0xB0AC_BB32
  {
    var cs: seq<bv32> := [0x7C23_107A, 0x3E11_883D, 0xF2B0_473E, 0x7958_239F, 0xD114_92EF,
                          0x8532_CA57, 0xAF21_E60B, 0xBA28_7025, 0xB0AC_BB32];
    assert (0x32 as uint8) as bv32 == 0x32;
    assert cs[0] == 0x7C23_1048 ^ 0x32;
    forall k | 0 <= k < 8
      ensures ShiftBit(cs[k]) == cs[k + 1]
    {
      if k == 0 {
        assert ShiftBit(0x7C23_107A) == 0x3E11_883D;
      } else if k == 1 {
        assert ShiftBit(0x3E11_883D) == 0xF2B0_473E;
      } else if k == 2 {
        assert ShiftBit(0xF2B0_473E) == 0x7958_239F;
      } else if k == 3 {
        assert ShiftBit(0x7958_239F) == 0xD114_92EF;
      } else if k == 4 {
        assert ShiftBit(0xD114_92EF) == 0x8532_CA57;
      } else if k == 5 {
        assert ShiftBit(0x8532_CA57) == 0xAF21_E60B;
      } else if k == 6 {
        assert ShiftBit(0xAF21_E60B) == 0xBA28_7025;
      } else {
        assert ShiftBit(0xBA28_7025) == 0xB0AC_BB32;
      }
    }
    FeedChain(0x7C23_1048, 0x32, cs);
  }

  lemma CheckStep2()
    ensures Feed(0xB0AC_BB32, 0x33) == 0x77B7_9C2D
  {
    var cs: seq<bv32> := [0xB0AC_BB01, 0xB5EE_DEA0, 0x5AF7_6F50, 0x2D7B_B7A8, 0x16BD_DBD4,
                          0x0B5E_EDEA, 0x05AF_76F5, 0xEF6F_385A, 0x77B7_9C2D];
    assert (0x33 as uint8) as bv32 == 0x33;
    assert cs[0] == 0xB0AC_BB32 ^ 0x33;
    forall k | 0 <= k < 8
      ensures ShiftBit(cs[k]) == cs[k + 1]
    {
      if k == 0 {
        assert ShiftBit(0xB0AC_BB01) == 0xB5EE_DEA0;
      } else if k == 1 {
        assert ShiftBit(0xB5EE_DEA0) == 0x5AF7_6F50;
      } else if k == 2 {
        assert ShiftBit(0x5AF7_6F50) == 0x2D7B_B7A8;
      } else if k == 3 {
        assert ShiftBit(0x2D7B_B7A8) == 0x16BD_DBD4;
      } else if k == 4 {
        assert ShiftBit(0x16BD_DBD4) == 0x0B5E_EDEA;
      } else if k == 5 {
        assert ShiftBit(0x0B5E_EDEA) == 0x05AF_76F5;
      } else if k == 6 {
        assert ShiftBit(0x05AF_76F5) == 0xEF6F_385A;
      } else {
        assert ShiftBit(0xEF6F_385A) == 0x77B7_9C2D;
      }
    }
    FeedChain(0xB0AC_BB32, 0x33, cs);
  }

  lemma CheckStep3()
    ensures Feed(0x77B7_9C2D, 0x34) == 0x641C_1F5C
  {
    var cs: seq<bv32> := [0x77B7_9C19, 0xD663_4D2C, 0x6B31_A696, 0x3598_D34B, 0xF774_EA85,
                          0x9602_F662, 0x4B01_7B31, 0xC838_3EB8, 0x641C_1F5C];
    assert (0x34 as uint8) as bv32 == 0x34;
    assert cs[0] == 0x77B7_9C2D ^ 0x34;
    forall k | 0 <= k < 8
      ensures ShiftBit(cs[k]) == cs[k + 1]
    {
      if k == 0 {
        assert ShiftBit(0x77B7_9C19) == 0xD663_4D2C;
      } else if k == 1 {
        assert ShiftBit(0xD663_4D2C) == 0x6B31_A696;
      } else if k == 2 {
        assert ShiftBit(0x6B31_A696) == 0x3598_D34B;
      } else if k == 3 {
        assert ShiftBit(0x3598_D34B) == 0xF774_EA85;
      } else if k == 4 {
        assert ShiftBit(0xF774_EA85) == 0x9602_F662;
      } else if k == 5 {
        assert ShiftBit(0x9602_F662) == 0x4B01_7B31;
      } else if k == 6 {
        assert ShiftBit(0x4B01_7B31) == 0xC838_3EB8;
      } else {
        assert ShiftBit(0xC838_3EB8) == 0x641C_1F5C;
      }
    }
    FeedChain(0x77B7_9C2D, 0x34, cs);
  }

  lemma CheckStep4()
    ensures Feed(0x641C_1F5C, 0x35) == 0x340A_C5E3
  {
    var cs: seq<bv32> := [0x641C_1F69, 0xDFB6_8C94, 0x6FDB_464A, 0x37ED_A325, 0xF64E_52B2,
                          0x7B27_2959, 0xD02B_178C, 0x6815_8BC6, 0x340A_C5E3];
    assert (0x35 as uint8) as bv32 == 0x35;
    assert cs[0] == 0x641C_1F5C ^ 0x35;
    forall k | 0 <= k < 8
      ensures ShiftBit(cs[k]) == cs[k + 1]
    {
      if k == 0 {
        assert ShiftBit(0x641C_1F69) == 0xDFB6_8C94;
      } else if k == 1 {
        assert ShiftBit(0xDFB6_8C94) == 0x6FDB_464A;
      } else if k == 2 {
        assert ShiftBit(0x6FDB_464A) == 0x37ED_A325;
      } else if k == 3 {
        assert ShiftBit(0x37ED_A325) == 0xF64E_52B2;
      } else if k == 4 {
        assert ShiftBit(0xF64E_52B2) == 0x7B27_2959;
      } else if k == 5 {
        assert ShiftBit(0x7B27_2959) == 0xD02B_178C;
      } else if k == 6 {
        assert ShiftBit(0xD02B_178C) == 0x6815_8BC6;
      } else {
        assert ShiftBit(0x6815_8BC6) == 0x340A_C5E3;
      }
    }
    FeedChain(0x641C_1F5C, 0x35, cs);
  }

  lemma CheckStep5()
    ensures Feed(0x340A_C5E3, 0x36) == 0xF68D_2C9E
  {
    var cs: seq<bv32> := [0x340A_C5D5, 0xF7BD_E1CA, 0x7BDE_F0E5, 0xD057_FB52, 0x682B_FDA9,
                          0xD9AD_7DF4, 0x6CD6_BEFA, 0x366B_5F7D, 0xF68D_2C9E];
    assert (0x36 as uint8) as bv32 == 0x36;
    assert cs[0] == 0x340A_C5E3 ^ 0x36;
    forall k | 0 <= k < 8
      ensures ShiftBit(cs[k]) == cs[k + 1]
    {
      if k == 0 {
        assert ShiftBit(0x340A_C5D5) == 0xF7BD_E1CA;
      } else if k == 1 {
        assert ShiftBit(0xF7BD_E1CA) == 0x7BDE_F0E5;
      } else if k == 2 {
        assert ShiftBit(0x7BDE_F0E5) == 0xD057_FB52;
      } else if k == 3 {
        assert ShiftBit(0xD057_FB52) == 0x682B_FDA9;
      } else if k == 4 {
        assert ShiftBit(0x682B_FDA9) == 0xD9AD_7DF4;
      } else if k == 5 {
        assert ShiftBit(0xD9AD_7DF4) == 0x6CD6_BEFA;
      } else if k == 6 {
        assert ShiftBit(0x6CD6_BEFA) == 0x366B_5F7D;
      } else {
        assert ShiftBit(0x366B_5F7D) == 0xF68D_2C9E;
      }
    }
    FeedChain(0x340A_C5E3, 0x36, cs);
  }

  lemma CheckStep6()
    ensures Feed(0xF68D_2C9E, 0x37) == 0xAFFC_9660
  {
    var cs: seq<bv32> := [0xF68D_2CA9, 0x96FE_1574, 0x4B7F_0ABA, 0x25BF_855D, 0xFF67_418E,
                          0x7FB3_A0C7, 0xD261_5343, 0x8488_2A81, 0xAFFC_9660];
    assert (0x37 as uint8) as bv32 == 0x37;
    assert cs[0] == 0xF68D_2C9E ^ 0x37;
    forall k | 0 <= k < 8
      ensures ShiftBit(cs[k]) == cs[k + 1]
    {
      if k == 0 {
        assert ShiftBit(0xF68D_2CA9) == 0x96FE_1574;
      } else if k == 1 {
        assert ShiftBit(0x96FE_1574) == 0x4B7F_0ABA;
      } else if k == 2 {
        assert ShiftBit(0x4B7F_0ABA) == 0x25BF_855D;
      } else if k == 3 {
        assert ShiftBit(0x25BF_855D) == 0xFF67_418E;
      } else if k == 4 {
        assert ShiftBit(0xFF67_418E) == 0x7FB3_A0C7;
      } else if k == 5 {
        assert ShiftBit(0x7FB3_A0C7) == 0xD261_5343;
      } else if k == 6 {
        assert ShiftBit(0xD261_5343) == 0x8488_2A81;
      } else {
        assert ShiftBit(0x8488_2A81) == 0xAFFC_9660;
      }
    }
    FeedChain(0xF68D_2C9E, 0x37, cs);
  }

  lemma CheckStep7()
    ensures Feed(0xAFFC_9660, 0x38) == 0x651F_2550
  {
    var cs: seq<bv32> := [0xAFFC_9658, 0x57FE_4B2C, 0x2BFF_2596, 0x15FF_92CB, 0xE747_4A45,
                          0x9E1B_2602, 0x4F0D_9301, 0xCA3E_4AA0, 0x651F_2550];
    assert (0x38 as uint8) as bv32 == 0x38;
    assert cs[0] == 0xAFFC_9660 ^ 0x38;
    forall k | 0 <= k < 8
      ensures ShiftBit(cs[k]) == cs[k + 1]
    {
      if k == 0 {
        assert ShiftBit(0xAFFC_9658) == 0x57FE_4B2C;
      } else if k == 1 {
        assert ShiftBit(0x57FE_4B2C) == 0x2BFF_2596;
      } else if k == 2 {
        assert ShiftBit(0x2BFF_2596) == 0x15FF_92CB;
      } else if k == 3 {
        assert ShiftBit(0x15FF_92CB) == 0xE747_4A45;
      } else if k == 4 {
        assert ShiftBit(0xE747_4A45) == 0x9E1B_2602;
      } else if k == 5 {
        assert ShiftBit(0x9E1B_2602) == 0x4F0D_9301;
      } else if k == 6 {
        assert ShiftBit(0x4F0D_9301) == 0xCA3E_4AA0;
      } else {
        assert ShiftBit(0xCA3E_4AA0) == 0x651F_2550;
      }
    }
    FeedChain(0xAFFC_9660, 0x38, cs);
  }

  lemma CheckStep8()
    ensures Feed(0x651F_2550, 0x39) == 0x340B_C6D9
  {
    var cs: seq<bv32> := [0x651F_2569, 0xDF37_1194, 0x6F9B_88CA, 0x37CD_C465, 0xF65E_6112,
                          0x7B2F_3089, 0xD02F_1B64, 0x6817_8DB2, 0x340B_C6D9];
    assert (0x39 as uint8) as bv32 == 0x39;
    assert cs[0] == 0x651F_2550 ^ 0x39;
    forall k | 0 <= k < 8
      ensures ShiftBit(cs[k]) == cs[k + 1]
    {
      if k == 0 {
        assert ShiftBit(0x651F_2569) == 0xDF37_1194;
      } else if k == 1 {
        assert ShiftBit(0xDF37_1194) == 0x6F9B_88CA;
      } else if k == 2 {
        assert ShiftBit(0x6F9B_88CA) == 0x37CD_C465;
      } else if k == 3 {
        assert ShiftBit(0x37CD_C465) == 0xF65E_6112;
      } else if k == 4 {
        assert ShiftBit(0xF65E_6112) == 0x7B2F_3089;
      } else if k == 5 {
        assert ShiftBit(0x7B2F_3089) == 0xD02F_1B64;
      } else if k == 6 {
        assert ShiftBit(0xD02F_1B64) == 0x6817_8DB2;
      } else {
        assert ShiftBit(0x6817_8DB2) == 0x340B_C6D9;
      }
    }
    FeedChain(0x651F_2550, 0x39, cs);
  }

  /** The standard check value of this CRC: "123456789" gives 0xCBF43926, which
      pins down the polynomial, the bit order and the initial and final complements. */
  lemma CheckValue()
    ensures Crc32(CheckInput) == 0xCBF4_3926
  {
    var i := 9;
    while i > 0
      invariant 0 <= i <= 9
      invariant Register(CheckRegisters[i], CheckInput[i..]) == 0x340B_C6D9
    {
      i := i - 1;
      CheckStep(i);
      assert CheckInput[i..][1..] == CheckInput[i + 1..];
    }
  }
}

=== FILE: protocol.dfy ===
/** The GCP1 wire format (`protocol.py`): the fixed 28-byte header, the 3-byte
    grid-change entry and the 12-byte EVENT payload, all in network byte order. */
module Protocol {
  import opened BigEndian
  import opened Wrappers
  import Utf8
  import opened Checksum

  /** The ASCII tag "GCP1". */
  const ProtocolId: Bytes := [0x47, 0x43, 0x50, 0x31]
  const Version := 1

  const MsgInit := 0x01
  const MsgSnapshot := 0x02
  const MsgEvent := 0x03
  const MsgGameOver := 0x04

  /** `!4sBBIIQHI`: tag, version, type, snapshot id, sequence number, timestamp,
      payload length, checksum. */
  const HeaderSize := 4 + 1 + 1 + 4 + 4 + 8 + 2 + 4
  /** `!HB`: cell id, new owner. */
  const GridChangeSize := 2 + 1
  /** `!BBHQ`: player id, action type, cell id, timestamp. */
  const EventPayloadSize := 1 + 1 + 2 + 8

  // ---------------------------------------------------------------- header

  /** A decoded header. The tag is kept as its four raw bytes. */
  datatype Header = Header(
    protocolId: Bytes,
    version: int,
    msgType: int,
    snapshotId: int,
    seqNum: int,
    timestamp: int,
    payloadLen: int,
    checksum: int)

  /** Every field fits its `struct` code, so packing does not raise. */
  predicate HeaderPackable(h: Header) {
    && |h.protocolId| == 4
    && Fits(h.version, 1)
    && Fits(h.msgType, 1)
    && Fits(h.snapshotId, 4)
    && Fits(h.seqNum, 4)
    && Fits(h.timestamp, 8)
    && Fits(h.payloadLen, 2)
    && Fits(h.checksum, 4)
  }

  function PackHeader(h: Header): (r: Bytes)
    requires HeaderPackable(h)
    ensures |r| == HeaderSize
  {
    h.protocolId + ToBE(h.version, 1) + ToBE(h.msgType, 1) + ToBE(h.snapshotId, 4)
    + ToBE(h.seqNum, 4) + ToBE(h.timestamp, 8) + ToBE(h.payloadLen, 2) + ToBE(h.checksum, 4)
  }

  function UnpackHeader(d: Bytes): (h: Header)
    requires |d| == HeaderSize
    ensures HeaderPackable(h)
  {
    Header(d[0..4], FromBE(d[4..5]), FromBE(d[5..6]), FromBE(d[6..10]), FromBE(d[10..14]),
           FromBE(d[14..22]), FromBE(d[22..24]), FromBE(d[24..28]))
  }

  /** Unpacking a packed header gives every field back. */
  lemma UnpackPackHeader(h: Header)
    requires HeaderPackable(h)
    ensures UnpackHeader(PackHeader(h)) == h
  {
    var d := PackHeader(h);
    var tail := ToBE(h.payloadLen, 2) + ToBE(h.checksum, 4);
    assert d == h.protocolId + ToBE(h.version, 1) + ToBE(h.msgType, 1) + ToBE(h.snapshotId, 4)
              + ToBE(h.seqNum, 4) + ToBE(h.timestamp, 8) + tail;
    assert d[0..4] == h.protocolId;
    assert d[4..5] == ToBE(h.version, 1);
    assert d[5..6] == ToBE(h.msgType, 1);
    assert d[6..10] == ToBE(h.snapshotId, 4);
    assert d[10..14] == ToBE(h.seqNum, 4);
    assert d[14..22] == ToBE(h.timestamp, 8);
    assert d[22..24] == ToBE(h.payloadLen, 2);
    assert d[24..28] == ToBE(h.checksum, 4);
    FromBEToBE(h.version, 1);
    FromBEToBE(h.msgType, 1);
    FromBEToBE(h.snapshotId, 4);
    FromBEToBE(h.seqNum, 4);
    FromBEToBE(h.timestamp, 8);
    FromBEToBE(h.payloadLen, 2);
    FromBEToBE(h.checksum, 4);
  }

  /** Packing an unpacked header gives the original 28 bytes back. */
  lemma PackUnpackHeader(d: Bytes)
    requires |d| == HeaderSize
    ensures PackHeader(UnpackHeader(d)) == d
  {
    ToBEFromBE(d[4..5]);
    ToBEFromBE(d[5..6]);
    ToBEFromBE(d[6..10]);
    ToBEFromBE(d[10..14]);
    ToBEFromBE(d[14..22]);
    ToBEFromBE(d[22..24]);
    ToBEFromBE(d[24..28]);
    assert d == d[0..4] + d[4..5] + d[5..6] + d[6..10] + d[10..14] + d[14..22] + d[22..24] + d[24..28];
  }

  /** The header `build_header` stamps over `payload` at wall-clock time `nowMs`. */
  function HeaderFor(msgType: int, snapshotId: int, seqNum: int, nowMs: int, payload: Bytes): Header {
    Header(ProtocolId, Version, msgType, snapshotId, seqNum, nowMs, |payload|,
           Crc32(payload) % 0x1_0000_0000)
  }

  /** build_header: packs the header for `payload`; `struct.pack` raises when a
      field is out of range, including a payload longer than 65535 bytes. */
  function BuildHeader(msgType: int, snapshotId: int, seqNum: int, nowMs: int, payload: Bytes): (r: Result<Bytes>)
    ensures r.Success? <==>
      Fits(msgType, 1) && Fits(snapshotId, 4) && Fits(seqNum, 4) && Fits(nowMs, 8) && |payload| < 0x1_0000
    ensures r.Failure? ==> r.fault == StructError
    ensures r.Success? ==> |r.value| == HeaderSize && r.value[..4] == ProtocolId
  {
    var h := HeaderFor(msgType, snapshotId, seqNum, nowMs, payload);
    if HeaderPackable(h) then Success(PackHeader(h)) else Failure(StructError)
  }

  /** parse_header: needs at least HEADER_SIZE bytes, reads exactly the first
      HEADER_SIZE of them, and decodes the tag as UTF-8. Neither the tag nor the
      version is checked against the expected values. */
  function ParseHeader(data: Bytes): (r: Result<Header>)
    ensures |data| < HeaderSize <==> r == Failure(IncompleteHeader)
    ensures |data| >= HeaderSize ==> (r.Success? <==> Utf8.WellFormed(data[..4]))
    ensures |data| >= HeaderSize && !Utf8.WellFormed(data[..4]) ==> r == Failure(UnicodeDecodeError)
    ensures r.Success? ==> HeaderPackable(r.value) && PackHeader(r.value) == data[..HeaderSize]
  {
    if |data| < HeaderSize then Failure(IncompleteHeader)
    else
      var h := UnpackHeader(data[..HeaderSize]);
      PackUnpackHeader(data[..HeaderSize]);
      assert h.protocolId == data[..4];
      if Utf8.WellFormed(h.protocolId) then Success(h) else Failure(UnicodeDecodeError)
  }

  lemma ProtocolIdIsUtf8()
    ensures Utf8.WellFormed(ProtocolId)
  {
    Utf8.AsciiWellFormed(ProtocolId);
  }

  /** A packed header with a well-formed tag parses back to itself. */
  lemma ParsePackedHeader(h: Header, rest: Bytes)
    requires HeaderPackable(h) && Utf8.WellFormed(h.protocolId)
    ensures ParseHeader(PackHeader(h) + rest) == Success(h)
  {
    var d := PackHeader(h) + rest;
    assert d[..HeaderSize] == PackHeader(h);
    UnpackPackHeader(h);
  }

  /** parse_header(build_header(...) + payload) returns the tag "GCP1", version 1,
      the given type, ids and timestamp, the payload's length and its CRC-32 masked to 32 bits. */
  lemma HeaderRoundTrip(msgType: int, snapshotId: int, seqNum: int, nowMs: int, payload: Bytes, rest: Bytes)
    requires BuildHeader(msgType, snapshotId, seqNum, nowMs, payload).Success?
    ensures ParseHeader(BuildHeader(msgType, snapshotId, seqNum, nowMs, payload).value + rest)
         == Success(Header(ProtocolId, Version, msgType, snapshotId, seqNum, nowMs, |payload|,
                           Crc32(payload) % 0x1_0000_0000))
  {
    var h := HeaderFor(msgType, snapshotId, seqNum, nowMs, payload);
    ProtocolIdIsUtf8();
    ParsePackedHeader(h, rest);
  }

  /** A parse only looks at the first HEADER_SIZE bytes: whatever follows is ignored. */
  lemma ParseHeaderIgnoresTrailer(data: Bytes, rest: Bytes)
    requires |data| >= HeaderSize
    ensures ParseHeader(data + rest) == ParseHeader(data)
  {
    assert (data + rest)[..HeaderSize] == data[..HeaderSize];
  }

  // ---------------------------------------------------------------- checksum

  /** validate_checksum: the header's checksum is the CRC-32 of the payload. */
  predicate ValidateChecksum(h: Header, payload: Bytes) {
    Crc32(payload) % 0x1_0000_0000 == h.checksum
  }

  /** A header built over a payload validates against that payload, and against
      every payload with a different CRC-32 it fails. */
  lemma ChecksumOfBuiltHeader(msgType: int, snapshotId: int, seqNum: int, nowMs: int, payload: Bytes, other: Bytes)
    requires BuildHeader(msgType, snapshotId, seqNum, nowMs, payload).Success?
    ensures ParseHeader(BuildHeader(msgType, snapshotId, seqNum, nowMs, payload).value).Success?
    ensures var h := ParseHeader(BuildHeader(msgType, snapshotId, seqNum, nowMs, payload).value).value;
      ValidateChecksum(h, payload) && (ValidateChecksum(h, other) <==> Crc32(other) % 0x1_0000_0000 == Crc32(payload) % 0x1_0000_0000)
  {
    var b := BuildHeader(msgType, snapshotId, seqNum, nowMs, payload).value;
    HeaderRoundTrip(msgType, snapshotId, seqNum, nowMs, payload, []);
    assert b + [] == b;
  }

  // ---------------------------------------------------------------- grid changes

  datatype GridChange = GridChange(cellId: int, newOwner: int)

  predicate GridChangePackable(c: GridChange) {
    Fits(c.cellId, 2) && Fits(c.newOwner, 1)
  }

  function PackGridChange(c: GridChange): (r: Bytes)
    requires GridChangePackable(c)
    ensures |r| == GridChangeSize
  {
    ToBE(c.cellId, 2) + ToBE(c.newOwner, 1)
  }

  function UnpackGridChange(d: Bytes): (c: GridChange)
    requires |d| == GridChangeSize
    ensures GridChangePackable(c)
  {
    GridChange(FromBE(d[..2]), FromBE(d[2..]))
  }

  lemma UnpackPackGridChange(c: GridChange)
    requires GridChangePackable(c)
    ensures UnpackGridChange(PackGridChange(c)) == c
  {
    var d := PackGridChange(c);
    assert d[..2] == ToBE(c.cellId, 2);
    assert d[2..] == ToBE(c.newOwner, 1);
    FromBEToBE(c.cellId, 2);
    FromBEToBE(c.newOwner, 1);
  }

  /** build_grid_change: one 3-byte entry, or a struct error for an id outside
      0..65535 or an owner outside 0..255. */
  function BuildGridChange(cellId: int, newOwner: int): (r: Result<Bytes>)
    ensures r.Success? <==> Fits(cellId, 2) && Fits(newOwner, 1)
    ensures r.Failure? ==> r.fault == StructError
    ensures r.Success? ==>
      |r.value| == GridChangeSize && UnpackGridChange(r.value) == GridChange(cellId, newOwner)
  {
    var c := GridChange(cellId, newOwner);
    if GridChangePackable(c) then
      UnpackPackGridChange(c);
      Success(PackGridChange(c))
    else Failure(StructError)
  }

  /** parse_grid_changes: reads `count` consecutive 3-byte entries from the front
      of `data`; a chunk cut short raises, a non-positive count reads nothing, and
      bytes after the last entry are ignored. */
  function ParseGridChanges(data: Bytes, count: int): (r: Result<seq<GridChange>>)
    ensures r.Success? <==> count <= 0 || GridChangeSize * count <= |data|
    ensures r.Failure? ==> r.fault == StructError
    ensures r.Success? ==> |r.value| == (if count <= 0 then 0 else count)
    ensures r.Success? ==> forall i :: 0 <= i < |r.value| ==>
      r.value[i] == UnpackGridChange(data[GridChangeSize * i .. GridChangeSize * i + GridChangeSize])
    decreases count
  {
    if count <= 0 then Success([])
    else if |data| < GridChangeSize then Failure(StructError)
    else
      var tail :- ParseGridChanges(data[GridChangeSize..], count - 1);
      var r := [UnpackGridChange(data[..GridChangeSize])] + tail;
      assert forall i :: 1 <= i < |r| ==>
        data[GridChangeSize..][GridChangeSize * (i - 1) .. GridChangeSize * (i - 1) + GridChangeSize]
        == data[GridChangeSize * i .. GridChangeSize * i + GridChangeSize];
      Success(r)
  }

  /** The concatenation of the entries' encodings, in order. */
  function EncodeGridChanges(cs: seq<GridChange>): (r: Bytes)
    requires forall i :: 0 <= i < |cs| ==> GridChangePackable(cs[i])
    ensures |r| == GridChangeSize * |cs|
  {
    if |cs| == 0 then [] else PackGridChange(cs[0]) + EncodeGridChanges(cs[1..])
  }

  /** Concatenating the entries of n changes and parsing n entries back gives the
      same changes, whatever bytes follow. */
  lemma {:induction false} GridChangesRoundTrip(cs: seq<GridChange>, rest: Bytes)
    requires forall i :: 0 <= i < |cs| ==> GridChangePackable(cs[i])
    ensures ParseGridChanges(EncodeGridChanges(cs) + rest, |cs|) == Success(cs)
  {
    if |cs| > 0 {
      var d := EncodeGridChanges(cs) + rest;
      assert d[..GridChangeSize] == PackGridChange(cs[0]);
      assert d[GridChangeSize..] == EncodeGridChanges(cs[1..]) + rest;
      UnpackPackGridChange(cs[0]);
      GridChangesRoundTrip(cs[1..], rest);
      assert cs == [cs[0]] + cs[1..];
    }
  }

  // ---------------------------------------------------------------- EVENT payload

  datatype Event = Event(playerId: int, actionType: int, cellId: int, timestamp: int)

  predicate EventPackable(e: Event) {
    Fits(e.playerId, 1) && Fits(e.actionType, 1) && Fits(e.cellId, 2) && Fits(e.timestamp, 8)
  }

  function PackEvent(e: Event): (r: Bytes)
    requires EventPackable(e)
    ensures |r| == EventPayloadSize
  {
    ToBE(e.playerId, 1) + ToBE(e.actionType, 1) + ToBE(e.cellId, 2) + ToBE(e.timestamp, 8)
  }

  function UnpackEvent(d: Bytes): (e: Event)
    requires |d| == EventPayloadSize
    ensures EventPackable(e)
  {
    Event(FromBE(d[0..1]), FromBE(d[1..2]), FromBE(d[2..4]), FromBE(d[4..12]))
  }

  /** build_event_payload: exactly 12 bytes, or a struct error for a field out of range. */
  function BuildEventPayload(playerId: int, actionType: int, cellId: int, timestamp: int): (r: Result<Bytes>)
    ensures r.Success? <==> EventPackable(Event(playerId, actionType, cellId, timestamp))
    ensures r.Failure? ==> r.fault == StructError
    ensures r.Success? ==> |r.value| == EventPayloadSize
  {
    var e := Event(playerId, actionType, cellId, timestamp);
    if EventPackable(e) then Success(PackEvent(e)) else Failure(StructError)
  }

  /** parse_event_payload: `struct.unpack` insists on exactly 12 bytes. */
  function ParseEventPayload(data: Bytes): (r: Result<Event>)
    ensures r.Success? <==> |data| == EventPayloadSize
    ensures r.Failure? ==> r.fault == StructError
    ensures r.Success? ==> EventPackable(r.value)
  {
    if |data| == EventPayloadSize then Success(UnpackEvent(data)) else Failure(StructError)
  }

  /** parse_event_payload(build_event_payload(p, a, c, ts)) returns p, a, c, ts. */
  lemma EventRoundTrip(playerId: int, actionType: int, cellId: int, timestamp: int)
    requires BuildEventPayload(playerId, actionType, cellId, timestamp).Success?
    ensures ParseEventPayload(BuildEventPayload(playerId, actionType, cellId, timestamp).value)
         == Success(Event(playerId, actionType, cellId, timestamp))
  {
    var e := Event(playerId, actionType, cellId, timestamp);
    var d := PackEvent(e);
    assert d[0..1] == ToBE(playerId, 1);
    assert d[1..2] == ToBE(actionType, 1);
    assert d[2..4] == ToBE(cellId, 2);
    assert d[4..12] == ToBE(timestamp, 8);
    FromBEToBE(playerId, 1);
    FromBEToBE(actionType, 1);
    FromBEToBE(cellId, 2);
    FromBEToBE(timestamp, 8);
  }

  /** Every 12-byte payload is the encoding of the event it parses to. */
  lemma EventReencodes(data: Bytes)
    requires ParseEventPayload(data).Success?
    ensures var e := ParseEventPayload(data).value;
      BuildEventPayload(e.playerId, e.actionType, e.cellId, e.timestamp) == Success(data)
  {
    ToBEFromBE(data[0..1]);
    ToBEFromBE(data[1..2]);
    ToBEFromBE(data[2..4]);
    ToBEFromBE(data[4..12]);
    assert data == data[0..1] + data[1..2] + data[2..4] + data[4..12];
  }
}

=== FILE: server.dfy ===
/** The authoritative server (`server.py`): the grid, the set of client addresses
    and the two broadcast counters, changed by one datagram or one broadcast tick at
    a time. Sockets, threads and sleeps are replaced by single-step functions whose
    outputs name what would be sent. */
module Server {
  import opened BigEndian
  import opened Wrappers
  import opened Protocol
  import opened Board
  import opened Checksum
  import Utf8

  /** A UDP peer address as `recvfrom` reports it. */
  datatype Addr = Addr(host: string, port: nat)

  datatype ServerState = ServerState(grid: Grid, clients: set<Addr>, snapshotId: int, seqNum: int)

  /** The module-level state at start-up. */
  function Initial(): (s: ServerState)
    ensures s.grid == Empty() && s.clients == {} && s.snapshotId == 0 && s.seqNum == 0
  {
    ServerState(Empty(), {}, 0, 0)
  }

  // ---------------------------------------------------------------- claims

  /** handle_event_message: decodes the EVENT payload, claims cell
      `cell_id` for `player_id` if nobody owns it yet, then registers the sender.
      A payload that is not 12 bytes raises a struct error, and a cell id of 64 or
      more indexes a row past the grid and raises IndexError; in both cases the
      sender is not registered. */
  function HandleEvent(s: ServerState, from: Addr, payload: Bytes): (r: Result<ServerState>)
    ensures r.Success? <==> |payload| == EventPayloadSize && ParseEventPayload(payload).value.cellId < Cells
    ensures |payload| != EventPayloadSize ==> r == Failure(StructError)
    ensures |payload| == EventPayloadSize && ParseEventPayload(payload).value.cellId >= Cells ==> r == Failure(IndexError)
    ensures r.Success? ==>
      var e := ParseEventPayload(payload).value;
      && r.value.clients == s.clients + {from}
      && r.value.snapshotId == s.snapshotId && r.value.seqNum == s.seqNum
      // first claim wins: an unowned cell goes to the claimant, an owned one stays put
      && (Cell(s.grid, e.cellId) == 0 ==> Cell(r.value.grid, e.cellId) as int == e.playerId)
      && (Cell(s.grid, e.cellId) != 0 ==> r.value.grid == s.grid)
      // no other cell changes
      && (forall k :: 0 <= k < Cells && k != e.cellId ==> Cell(r.value.grid, k) == Cell(s.grid, k))
  {
    var e :- ParseEventPayload(payload);
    var row := e.cellId / Size;
    var col := e.cellId % Size;
    if row >= Size then Failure(IndexError)
    else
      var g := if s.grid[row][col] == 0 then SetCell(s.grid, e.cellId, e.playerId as uint8) else s.grid;
      Success(s.(grid := g, clients := s.clients + {from}))
  }

  /** Ownership is settled by the first claim: once a cell has a non-zero owner,
      no EVENT changes it, and every cell's owner can only go from 0 to a claimant. */
  lemma ClaimKeepsOwners(s: ServerState, from: Addr, payload: Bytes, k: int)
    requires HandleEvent(s, from, payload).Success?
    requires 0 <= k < Cells
    ensures Cell(s.grid, k) != 0 ==> Cell(HandleEvent(s, from, payload).value.grid, k) == Cell(s.grid, k)
    ensures Cell(HandleEvent(s, from, payload).value.grid, k) != Cell(s.grid, k) ==>
      Cell(s.grid, k) == 0 && k == ParseEventPayload(payload).value.cellId
  {
  }

  // ---------------------------------------------------------------- snapshots

  /** The `num_players` byte that opens every snapshot payload. */
  const NumPlayers := 4
  const SnapshotPayloadSize := 1 + Cells * GridChangeSize

  /** The 64 entries of a snapshot: entry k is cell k with its owner, row-major. */
  function RowMajorChanges(g: Grid): (cs: seq<GridChange>)
    ensures |cs| == Cells
    ensures forall k :: 0 <= k < Cells ==> cs[k] == GridChange(k, Cell(g, k) as int)
  {
    seq(Cells, k requires 0 <= k < Cells => GridChange(k, Cell(g, k) as int))
  }

  /** build_snapshot_payload: the `num_players` byte (always 4) followed by the
      3-byte entries of every cell, rows outer and columns inner. Reading the
      64 entries back gives every cell of the grid with its owner. */
  function SnapshotPayload(g: Grid): (p: Bytes)
    ensures |p| == SnapshotPayloadSize && p[0] as int == NumPlayers
    ensures ParseGridChanges(p[1..], Cells) == Success(RowMajorChanges(g))
  {
    var cs := RowMajorChanges(g);
    var p := [NumPlayers as uint8] + EncodeGridChanges(cs);
    GridChangesRoundTrip(cs, []);
    assert p[1..] == EncodeGridChanges(cs) + [];
    p
  }

  /** Entry k of the snapshot payload is the 3-byte encoding of (k, owner of k). */
  lemma SnapshotEntry(g: Grid, k: int)
    requires 0 <= k < Cells
    ensures var p := SnapshotPayload(g);
      BuildGridChange(k, Cell(g, k) as int) == Success(p[1 + GridChangeSize * k .. 1 + GridChangeSize * k + GridChangeSize])
  {
    var p := SnapshotPayload(g);
    var entry := p[1..][GridChangeSize * k .. GridChangeSize * k + GridChangeSize];
    assert entry == p[1 + GridChangeSize * k .. 1 + GridChangeSize * k + GridChangeSize];
    assert UnpackGridChange(entry) == GridChange(k, Cell(g, k) as int);
    ToBEFromBE(entry[..2]);
    ToBEFromBE(entry[2..]);
    assert entry == entry[..2] + entry[2..];
  }

  /** Different grids give different snapshot payloads: a client can always tell. */
  lemma SnapshotPayloadInjective(a: Grid, b: Grid)
    requires SnapshotPayload(a) == SnapshotPayload(b)
    ensures a == b
  {
    assert RowMajorChanges(a) == RowMajorChanges(b);
    forall k | 0 <= k < Cells
      ensures Cell(a, k) == Cell(b, k)
    {
      assert RowMajorChanges(a)[k] == RowMajorChanges(b)[k];
    }
    GridExtensional(a, b);
  }

  /** What one broadcast tick sends, and the state after it. */
  datatype Broadcast = Broadcast(next: ServerState, packet: Bytes, recipients: set<Addr>)

  /** broadcast_snapshot at wall-clock time `nowMs`: one SNAPSHOT packet to every
      registered client, then both counters go up by one. When a counter no longer
      fits in 32 bits `build_header` raises and nothing changes. */
  function BroadcastSnapshot(s: ServerState, nowMs: int): (r: Result<Broadcast>)
    ensures r.Success? <==> Fits(s.snapshotId, 4) && Fits(s.seqNum, 4) && Fits(nowMs, 8)
    ensures r.Success? ==>
      && r.value.next == s.(snapshotId := s.snapshotId + 1, seqNum := s.seqNum + 1)
      && r.value.recipients == s.clients
      && |r.value.packet| == HeaderSize + SnapshotPayloadSize
      && r.value.packet[HeaderSize..] == SnapshotPayload(s.grid)
      && ParseHeader(r.value.packet) == Success(Header(ProtocolId, Version, MsgSnapshot, s.snapshotId, s.seqNum,
                                                       nowMs, SnapshotPayloadSize, Crc32(SnapshotPayload(s.grid)) % 0x1_0000_0000))
  {
    var payload := SnapshotPayload(s.grid);
    var header :- BuildHeader(MsgSnapshot, s.snapshotId, s.seqNum, nowMs, payload);
    HeaderRoundTrip(MsgSnapshot, s.snapshotId, s.seqNum, nowMs, payload, payload);
    Success(Broadcast(s.(snapshotId := s.snapshotId + 1, seqNum := s.seqNum + 1), header + payload, s.clients))
  }

  // ---------------------------------------------------------------- dispatch

  /** receive_loop's handling of one datagram, as written: short datagrams are
      skipped, only EVENT reaches the claim handler, and the payload is whatever
      follows the header (neither its length field nor its checksum is checked).
      A `Failure` is an exception escaping the loop, which catches only
      BlockingIOError: the receiving thread ends and no later datagram is handled. */
  function ReceiveAsWritten(s: ServerState, from: Addr, data: Bytes): (r: Result<ServerState>)
    ensures |data| < HeaderSize ==> r == Success(s)
    ensures |data| >= HeaderSize && ParseHeader(data).Failure? ==> r == Failure(UnicodeDecodeError)
    ensures ParseHeader(data).Success? && ParseHeader(data).value.msgType != MsgEvent ==> r == Success(s)
    ensures ParseHeader(data).Success? && ParseHeader(data).value.msgType == MsgEvent ==>
      r == HandleEvent(s, from, data[HeaderSize..])
  {
    if |data| < HeaderSize then Success(s)
    else
      var h :- ParseHeader(data);
      if h.msgType == MsgEvent then HandleEvent(s, from, data[HeaderSize..]) else Success(s)
  }

  /** As written, every EVENT datagram with a decodable tag that claims a cell
      id of 64 or more escapes receive_loop as IndexError. */
  lemma ReceiveAsWrittenDiesOnOutOfGridCell(s: ServerState, from: Addr, h: Header, e: Event)
    requires HeaderPackable(h) && Utf8.WellFormed(h.protocolId) && h.msgType == MsgEvent
    requires EventPackable(e) && e.cellId >= Cells
    ensures ReceiveAsWritten(s, from, PackHeader(h) + PackEvent(e)) == Failure(IndexError)
  {
    var payload := PackEvent(e);
    ParsePackedHeader(h, payload);
    EventRoundTrip(e.playerId, e.actionType, e.cellId, e.timestamp);
    assert (PackHeader(h) + payload)[HeaderSize..] == payload;
  }

  /** A concrete instance: player 1 claims cell 64, one past the last cell. The
      checksum field is left 0, since the server never looks at it. */
  lemma OutOfGridClaimStopsReceiveLoop(s: ServerState, from: Addr)
    ensures ReceiveAsWritten(s, from, PackHeader(Header(ProtocolId, Version, MsgEvent, 0, 0, 0, 12, 0))
                                      + PackEvent(Event(1, 0, 64, 0))) == Failure(IndexError)
  {
    ProtocolIdIsUtf8();
    ReceiveAsWrittenDiesOnOutOfGridCell(s, from, Header(ProtocolId, Version, MsgEvent, 0, 0, 0, 12, 0), Event(1, 0, 64, 0));
  }

  /** As written, an EVENT datagram whose payload is not 12 bytes escapes
      receive_loop as a struct error. */
  lemma ReceiveAsWrittenDiesOnShortEvent(s: ServerState, from: Addr, data: Bytes)
    requires ParseHeader(data).Success? && ParseHeader(data).value.msgType == MsgEvent
    requires |data| != HeaderSize + EventPayloadSize
    ensures ReceiveAsWritten(s, from, data) == Failure(StructError)
  {
  }

  /** receive_loop's handling of one datagram, as evidently intended: a datagram
      that cannot be handled (truncated header, undecodable tag, EVENT payload of
      the wrong size, cell outside the grid) is dropped like a short one and the
      loop carries on. */
  function Receive(s: ServerState, from: Addr, data: Bytes): (r: ServerState)
    ensures |data| < HeaderSize ==> r == s
    ensures ParseHeader(data).Failure? ==> r == s
    ensures ParseHeader(data).Success? && ParseHeader(data).value.msgType != MsgEvent ==> r == s
    ensures r.snapshotId == s.snapshotId && r.seqNum == s.seqNum
    ensures s.clients <= r.clients
  {
    match ReceiveAsWritten(s, from, data)
    case Success(next) => next
    case Failure(_) => s
  }

  /** Receive agrees with the code wherever the code survives, and drops exactly
      the datagrams that would have ended the receiving thread. */
  lemma ReceiveRefinesAsWritten(s: ServerState, from: Addr, data: Bytes)
    ensures ReceiveAsWritten(s, from, data).Success? ==> Receive(s, from, data) == ReceiveAsWritten(s, from, data).value
    ensures ReceiveAsWritten(s, from, data).Failure? ==> Receive(s, from, data) == s
  {
  }

  // ---------------------------------------------------------------- runs

  /** One thing that can happen to the server: a datagram arrives, or the
      snapshot thread ticks at wall-clock time `nowMs`. */
  datatype Input = Datagram(from: Addr, data: Bytes) | Tick(nowMs: int)

  /** A run: the final state and the snapshot id stamped on each broadcast. */
  datatype Run = Run(final: ServerState, broadcastIds: seq<int>)

  /** The corrected server's state after a sequence of inputs, each handled to
      completion before the next: datagrams go through `Receive`, so none can stop
      the receiving side. Fails when a broadcast fails. */
  function Execute(s: ServerState, inputs: seq<Input>): Result<Run>
    decreases |inputs|
  {
    if |inputs| == 0 then Success(Run(s, []))
    else
      match inputs[0]
      case Datagram(from, data) => Execute(Receive(s, from, data), inputs[1..])
      case Tick(nowMs) =>
        var b :- BroadcastSnapshot(s, nowMs);
        var rest :- Execute(b.next, inputs[1..]);
        Success(Run(rest.final, [s.snapshotId] + rest.broadcastIds))
  }

  predicate StrictlyIncreasing(xs: seq<int>) {
    forall i, j :: 0 <= i < j < |xs| ==> xs[i] < xs[j]
  }

  /** Over any run, broadcasts carry strictly increasing snapshot ids, starting
      from the current counter, and both counters end advanced by the number of
      broadcasts. */
  lemma {:induction false} BroadcastIdsIncrease(s: ServerState, inputs: seq<Input>)
    requires Execute(s, inputs).Success?
    ensures var run := Execute(s, inputs).value;
      && StrictlyIncreasing(run.broadcastIds)
      && (forall i :: 0 <= i < |run.broadcastIds| ==> run.broadcastIds[i] >= s.snapshotId)
      && run.final.snapshotId == s.snapshotId + |run.broadcastIds|
      && run.final.seqNum == s.seqNum + |run.broadcastIds|
    decreases |inputs|
  {
    if |inputs| > 0 {
      match inputs[0]
      case Datagram(from, data) =>
        BroadcastIdsIncrease(Receive(s, from, data), inputs[1..]);
      case Tick(nowMs) =>
        var b := BroadcastSnapshot(s, nowMs).value;
        BroadcastIdsIncrease(b.next, inputs[1..]);
        var rest := Execute(b.next, inputs[1..]).value;
        assert Execute(s, inputs).value == Run(rest.final, [s.snapshotId] + rest.broadcastIds);
        PrependIds([s.snapshotId], rest.broadcastIds, s.snapshotId);
    }
  }

  /** Over any run, an owned cell keeps its owner and a registered client stays
      registered. */
  lemma {:induction false} RunKeepsOwnersAndClients(s: ServerState, inputs: seq<Input>, k: int)
    requires Execute(s, inputs).Success?
    requires 0 <= k < Cells
    ensures var run := Execute(s, inputs).value;
      && (Cell(s.grid, k) != 0 ==> Cell(run.final.grid, k) == Cell(s.grid, k))
      && s.clients <= run.final.clients
    decreases |inputs|
  {
    if |inputs| > 0 {
      match inputs[0]
      case Datagram(from, data) =>
        var next := Receive(s, from, data);
        if ReceiveAsWritten(s, from, data).Success? && |data| >= HeaderSize {
          var h := ParseHeader(data).value;
          if h.msgType == MsgEvent {
            ClaimKeepsOwners(s, from, data[HeaderSize..], k);
          }
        }
        RunKeepsOwnersAndClients(next, inputs[1..], k);
      case Tick(nowMs) =>
        var b := BroadcastSnapshot(s, nowMs).value;
        RunKeepsOwnersAndClients(b.next, inputs[1..], k);
    }
  }

  // ---------------------------------------------------------------- runs, as written

  /** The program as written runs two daemon threads: receive_loop and
      snapshot_loop. An exception ends only the thread that raised it; the other
      one and the process carry on. */
  datatype Threads = Threads(state: ServerState, receiving: bool, broadcasting: bool)

  /** A run of the program as written: the final threads and the ids broadcast. */
  datatype ThreadsRun = ThreadsRun(final: Threads, broadcastIds: seq<int>)

  /** Both threads alive, as the entry point starts them. */
  function Start(s: ServerState): (t: Threads)
    ensures t.state == s && t.receiving && t.broadcasting
  {
    Threads(s, true, true)
  }

  /** One input to the program as written. A datagram reaches the state only while
      the receiving thread is alive, and an exception escaping it ends that thread
      with the state as it was. A tick broadcasts only while the snapshot thread is
      alive, and a failing build_header ends that thread with nothing sent. */
  function StepAsWritten(t: Threads, input: Input): (r: (Threads, seq<int>))
    ensures r.0.receiving ==> t.receiving
    ensures r.0.broadcasting ==> t.broadcasting
    ensures input.Datagram? ==> r.1 == [] && r.0.broadcasting == t.broadcasting
    ensures |r.1| <= 1 && (forall i :: 0 <= i < |r.1| ==> r.1[i] == t.state.snapshotId)
    ensures r.0.state.snapshotId == t.state.snapshotId + |r.1| && r.0.state.seqNum == t.state.seqNum + |r.1|
    ensures input.Tick? ==> r.0.receiving == t.receiving && r.0.state.grid == t.state.grid
                            && r.0.state.clients == t.state.clients
    // a thread that has ended ignores its input
    ensures input.Datagram? && !t.receiving ==> r == (t, [])
    ensures input.Tick? && !t.broadcasting ==> r == (t, [])
    // a live receiver handles the datagram as written; an exception ends it, state untouched
    ensures input.Datagram? && t.receiving ==>
      var a := ReceiveAsWritten(t.state, input.from, input.data);
      r == (if a.Success? then (t.(state := a.value), []) else (t.(receiving := false), []))
    // a live snapshot thread broadcasts; a failing build_header ends it with nothing sent
    ensures input.Tick? && t.broadcasting ==>
      var b := BroadcastSnapshot(t.state, input.nowMs);
      r == (if b.Success? then (t.(state := b.value.next), [t.state.snapshotId]) else (t.(broadcasting := false), []))
  {
    match input
    case Datagram(from, data) =>
      if !t.receiving then (t, [])
      else (
        match ReceiveAsWritten(t.state, from, data)
        case Success(next) => (t.(state := next), [])
        case Failure(_) => (t.(receiving := false), []))
    case Tick(nowMs) =>
      if !t.broadcasting then (t, [])
      else
        match BroadcastSnapshot(t.state, nowMs)
        case Success(b) => (t.(state := b.next), [t.state.snapshotId])
        case Failure(_) => (t.(broadcasting := false), [])
  }

  /** The program as written over a sequence of inputs. A thread that has ended
      never comes back. */
  function ExecuteAsWritten(t: Threads, inputs: seq<Input>): (r: ThreadsRun)
    ensures r.final.receiving ==> t.receiving
    ensures r.final.broadcasting ==> t.broadcasting
    decreases |inputs|
  {
    if |inputs| == 0 then ThreadsRun(t, [])
    else
      var (next, sent) := StepAsWritten(t, inputs[0]);
      var rest := ExecuteAsWritten(next, inputs[1..]);
      ThreadsRun(rest.final, sent + rest.broadcastIds)
  }

  /** Once receive_loop has ended, no later datagram is handled: over the rest of
      the run the grid and the client set never change again. */
  lemma {:induction false} ReceiverStaysDead(t: Threads, inputs: seq<Input>)
    requires !t.receiving
    ensures var r := ExecuteAsWritten(t, inputs);
      !r.final.receiving && r.final.state.grid == t.state.grid && r.final.state.clients == t.state.clients
    decreases |inputs|
  {
    if |inputs| > 0 {
      var (next, _) := StepAsWritten(t, inputs[0]);
      ReceiverStaysDead(next, inputs[1..]);
    }
  }

  /** Once snapshot_loop has ended, no snapshot is ever sent again: over the rest
      of the run nothing is broadcast and both counters stay where they were. */
  lemma {:induction false} SnapshotThreadStaysDead(t: Threads, inputs: seq<Input>)
    requires !t.broadcasting
    ensures var r := ExecuteAsWritten(t, inputs);
      && !r.final.broadcasting && r.broadcastIds == []
      && r.final.state.snapshotId == t.state.snapshotId && r.final.state.seqNum == t.state.seqNum
    decreases |inputs|
  {
    if |inputs| > 0 {
      var (next, _) := StepAsWritten(t, inputs[0]);
      SnapshotThreadStaysDead(next, inputs[1..]);
    }
  }

  /** As written, over any run, broadcasts carry strictly increasing snapshot ids
      from the current counter on, and both counters end advanced by the number
      of broadcasts, whichever thread stops. */
  lemma {:induction false} BroadcastIdsIncreaseAsWritten(t: Threads, inputs: seq<Input>)
    ensures var run := ExecuteAsWritten(t, inputs);
      && StrictlyIncreasing(run.broadcastIds)
      && (forall i :: 0 <= i < |run.broadcastIds| ==> run.broadcastIds[i] >= t.state.snapshotId)
      && run.final.state.snapshotId == t.state.snapshotId + |run.broadcastIds|
      && run.final.state.seqNum == t.state.seqNum + |run.broadcastIds|
    decreases |inputs|
  {
    if |inputs| > 0 {
      var step := StepAsWritten(t, inputs[0]);
      var next, sent := step.0, step.1;
      var rest := ExecuteAsWritten(next, inputs[1..]);
      BroadcastIdsIncreaseAsWritten(next, inputs[1..]);
      assert ExecuteAsWritten(t, inputs) == ThreadsRun(rest.final, sent + rest.broadcastIds);
      PrependIds(sent, rest.broadcastIds, t.state.snapshotId);
    }
  }

  /** Putting at most one id `c` in front of ids that are all above it keeps
      them strictly increasing and at least `c`. */
  lemma PrependIds(sent: seq<int>, rest: seq<int>, c: int)
    requires |sent| <= 1 && (forall i :: 0 <= i < |sent| ==> sent[i] == c)
    requires StrictlyIncreasing(rest) && (forall i :: 0 <= i < |rest| ==> rest[i] >= c + |sent|)
    ensures StrictlyIncreasing(sent + rest) && (forall i :: 0 <= i < |sent + rest| ==> (sent + rest)[i] >= c)
  {
    var ids := sent + rest;
    forall i, j | 0 <= i < j < |ids|
      ensures ids[i] < ids[j]
    {
      assert ids[j] == rest[j - |sent|];
      if i >= |sent| {
        assert ids[i] == rest[i - |sent|];
      }
    }
  }

  /** As written, over any run, an owned cell keeps its owner and a registered
      client stays registered, whichever thread stops. */
  lemma {:induction false} RunKeepsOwnersAndClientsAsWritten(t: Threads, inputs: seq<Input>, k: int)
    requires 0 <= k < Cells
    ensures var run := ExecuteAsWritten(t, inputs);
      && (Cell(t.state.grid, k) != 0 ==> Cell(run.final.state.grid, k) == Cell(t.state.grid, k))
      && t.state.clients <= run.final.state.clients
    decreases |inputs|
  {
    if |inputs| > 0 {
      var (next, _) := StepAsWritten(t, inputs[0]);
      RunKeepsOwnersAndClientsAsWritten(next, inputs[1..], k);
      if inputs[0].Datagram? {
        var data := inputs[0].data;
        if t.receiving && ReceiveAsWritten(t.state, inputs[0].from, data).Success? && |data| >= HeaderSize {
          if ParseHeader(data).value.msgType == MsgEvent {
            ClaimKeepsOwners(t.state, inputs[0].from, data[HeaderSize..], k);
          }
        }
      }
    }
  }

  /** While neither thread raises, the program as written and the corrected
      server go through the same states and send the same snapshots. */
  lemma {:induction false} ExecuteAgreesWhileAlive(t: Threads, inputs: seq<Input>)
    requires var r := ExecuteAsWritten(t, inputs); r.final.receiving && r.final.broadcasting
    ensures Execute(t.state, inputs) == Success(Run(ExecuteAsWritten(t, inputs).final.state,
                                                    ExecuteAsWritten(t, inputs).broadcastIds))
    decreases |inputs|
  {
    if |inputs| > 0 {
      var step := StepAsWritten(t, inputs[0]);
      var next := step.0;
      ExecuteAgreesWhileAlive(next, inputs[1..]);
      var rest := ExecuteAsWritten(next, inputs[1..]);
      assert next.receiving && next.broadcasting;
      assert ExecuteAsWritten(t, inputs) == ThreadsRun(rest.final, step.1 + rest.broadcastIds);
      match inputs[0]
      case Datagram(from, data) =>
        assert step.1 + rest.broadcastIds == rest.broadcastIds;
        assert ReceiveAsWritten(t.state, from, data).Success?;
        ReceiveRefinesAsWritten(t.state, from, data);
        assert Receive(t.state, from, data) == next.state;
      case Tick(nowMs) =>
        assert BroadcastSnapshot(t.state, nowMs).Success?;
        assert BroadcastSnapshot(t.state, nowMs).value.next == next.state;
    }
  }
}

=== FILE: utf8.dfy ===
/** Well-formed UTF-8 (Table 3-7 of the Unicode Standard, chapter 3), the
    condition under which Python's strict `bytes.decode()` succeeds. */
module Utf8 {
  import opened BigEndian

  predicate InRange(b: uint8, lo: int, hi: int) {
    lo <= b as int <= hi
  }

  predicate Continuation(b: uint8) {
    InRange(b, 0x80, 0xBF)
  }

  /** Length of the well-formed scalar encoding that starts `s`, or 0 if none does. */
  function LeadLength(s: Bytes): (n: nat)
    requires |s| > 0
    ensures n <= |s| && n <= 4
  {
    var b := s[0];
    if InRange(b, 0x00, 0x7F) then 1
    else if InRange(b, 0xC2, 0xDF) then
      if |s| >= 2 && Continuation(s[1]) then 2 else 0
    else if InRange(b, 0xE0, 0xEF) then
      if |s| < 3 || !Continuation(s[2]) then 0
      else if b == 0xE0 then (if InRange(s[1], 0xA0, 0xBF) then 3 else 0)
      else if b == 0xED then (if InRange(s[1], 0x80, 0x9F) then 3 else 0)
      else if Continuation(s[1]) then 3 else 0
    else if InRange(b, 0xF0, 0xF4) then
      if |s| < 4 || !Continuation(s[2]) || !Continuation(s[3]) then 0
      else if b == 0xF0 then (if InRange(s[1], 0x90, 0xBF) then 4 else 0)
      else if b == 0xF4 then (if InRange(s[1], 0x80, 0x8F) then 4 else 0)
      else if Continuation(s[1]) then 4 else 0
    else 0
  }

  predicate WellFormed(s: Bytes)
    decreases |s|
  {
    |s| == 0 || (LeadLength(s) > 0 && WellFormed(s[LeadLength(s)..]))
  }

  /** Every 7-bit ASCII string is well-formed UTF-8. */
  lemma {:induction false} AsciiWellFormed(s: Bytes)
    requires forall i :: 0 <= i < |s| ==> s[i] < 0x80
    ensures WellFormed(s)
  {
    if |s| > 0 {
      assert LeadLength(s) == 1;
      AsciiWellFormed(s[1..]);
    }
  }

  /** The strict decoder's table on sample inputs: overlong forms, surrogates,
      code points above U+10FFFF, a stray continuation byte and a truncated
      sequence are rejected; two-, three- and four-byte characters are accepted. */
  lemma DecoderTable()
    ensures !WellFormed([0xC0, 0x80])
    ensures !WellFormed([0xE0, 0x80, 0x80])
    ensures !WellFormed([0xED, 0xA0, 0x80])
    ensures !WellFormed([0xF4, 0x90, 0x80, 0x80])
    ensures !WellFormed([0x80, 0x41, 0x41, 0x41])
    ensures !WellFormed([0x41, 0x41, 0x41, 0xC3])
    ensures WellFormed([0xC3, 0xA9, 0xC3, 0xA9])
    ensures WellFormed([0xE2, 0x82, 0xAC, 0x41])
    ensures WellFormed([0xF0, 0x9F, 0x98, 0x80])
  {
  }
}

=== FILE: wrappers.dfy ===
/** Failure-compatible wrappers shared by the whole model.

    The modelled code signals failure by raising Python exceptions; a function that
    can raise returns a `Result`, whose `Failure` names the exception class. */
module Wrappers {

  datatype Option<+T> = None | Some(value: T)

  /** The exceptions the modelled code can raise. */
  datatype Fault =
    | StructError          // struct.pack / struct.unpack: field out of range or wrong buffer size
    | IncompleteHeader     // parse_header: fewer than HEADER_SIZE bytes
    | UnicodeDecodeError   // parse_header: protocol tag is not well-formed UTF-8
    | IndexError           // grid[row][col] with row >= 8

  datatype Result<+T> = Success(value: T) | Failure(fault: Fault) {

    predicate IsFailure() {
      Failure?
    }

    function PropagateFailure<U>(): Result<U>
      requires Failure?
    {
      Failure(fault)
    }

    function Extract(): T
      requires Success?
    {
      value
    }
  }
}
